=== FILE: README.md ===
# Metview style resolution, modelled in Dafny

This project models the style engine in `metview/style.py`. The engine resolves a field's metadata to a
visual style: a named, ordered list of rendering directives such as `mcont`, `mwind`, `mcoast`, `msymb` and
`mgraph`. Style files and parameter-rule files come from up to three configuration directories: local,
custom and system. The map configuration resolves a named area and a named coastline style into a geographic
view.

Modules, in dependency order:

- `Wrappers`: `Option`, `Result` and the error cases the source raises or crashes on.
- `Strings`: ASCII lower and upper case.
- `Nodes`: a parsed YAML value (`Node`), plus `Rekeyed`, the dict comprehension that re-keys entries in
  order so that a later entry wins on a key collision.
- `Visdefs`: the `Visdef` directive and the `Style`, with `change`, `change_symbol_text_list`,
  `to_request` and `update`.
- `Rules`: `ParamMatchCondition` and `ParamStyle`. Each rule is a list of match conditions plus a list
  of style names per plot type.
- `StyleDbs`: `StyleDb` and its methods:
  - decoding a style file, including the coastline shorthand;
  - the three built-in default styles;
  - rule files, whose style references are checked;
  - layered loading;
  - `get_style` and `get_param_style`.
- `MapConfs`: `GeoView` and `MapConf`, with area files, `find` and `view`.

Everything is value-based. A Python method that mutates `self` becomes a function that returns the new value.
A method that raises, or that crashes on a `None` or on a malformed value, returns a `Failure` carrying the
reason.

The parts of the engine that live outside `metview/style.py` become parameters:

- Matching a condition against a field (`param.match`) is a parameter of type `Matcher`.
- The Magics request builders are modelled as `Request(verb, args)` values.
- Configuration files arrive already parsed.

### Where the intended design and the code differ

The model follows the code in both cases.

- **Layer precedence.** The intended design treats the local and custom directories as overrides of the
  system defaults, with the first layer loaded winning for the names it defines. The code loads local, then
  custom, then system, and each load overwrites names already defined (`metview/style.py:180-196`). So a
  style the system directory defines always wins, and rules keep load order. `StyleDbs.SystemStylesWin` and
  `StyleDbs.RulesInLoadOrder` state this. Area files are loaded in the reverse order, so local areas win
  (`MapConfs.LocalAreasWin`).
- **Cross-section plot type.** The intended design calls this plot type "cross-section". The code accepts
  only the string `"xs"` (`metview/style.py:157`). Any other plot type yields no style.

## Model

| member | source | states |
|---|---|---|
| Visdefs.ToRequest | metview/style.py:54-80 | A directive becomes a request exactly when its verb is one of the five builder verbs and its params are a mapping. The request carries the verb and params unchanged. An unknown verb is an `UnsupportedVerb` error. |
| Visdefs.StyleToRequest | metview/style.py:97-98 | A style yields one request per directive, in directive order. It fails exactly when some directive cannot be turned into a request. |
| Visdefs.Change | metview/style.py:65-67 | A directive with a different verb is returned untouched. For a matching verb, `param` is set to `value` and every other parameter is kept. It fails only when params is not a mapping. |
| Visdefs.ChangeSymbolTextList | metview/style.py:69-73 | It is rejected unless the verb is `msymb`. `symbol_text_list` is set exactly when `symbol_type`, compared case-insensitively, is `text`, and the params are otherwise unchanged. A missing `symbol_type` counts as empty. A non-string `symbol_type` is an error. |
| Visdefs.LowerKeys | metview/style.py:105 | The keys of the result are exactly the lower-cased keys of the override. Each key maps to the value of the last entry that lower-cases to it. |
| Visdefs.Update | metview/style.py:100-107 | It keeps the name, length and verbs. It merges override i into directive i only when i is a directive index and the override is a mapping. The merge uses the lower-cased keys, and override values win. Other directives are unchanged. It fails, with `NotAMapping`, exactly when such an override meets non-mapping params. Without `inplace` the caller's style is unchanged; with it the caller's style becomes the result. |
| Visdefs.UpdateIgnoresExtraArgs | metview/style.py:102-103 | Overrides beyond the directive count have no effect on the update. |
| Rules.NormalizeCondition | metview/style.py:117-121 | A scalar `levels` entry is wrapped into a one-element list. A list is kept. Every other key is kept. Normalising twice changes nothing (`Rules.NormalizeConditionIdempotent`). |
| Rules.ConditionScore | metview/style.py:123-128 | An empty condition asks the field with the defaults: empty `info_name`, `None` level type, empty level list. |
| Rules.ConditionScoreReadsOnlyMatchKeys | metview/style.py:123-128 | The score depends only on the `info_name`, `level_type` and `levels` entries. Conditions that agree on them score the same. |
| Rules.NormalizedConditionScore | metview/style.py:117-128 | A loaded condition asks the field with its `info_name` (default empty), its `level_type` (default `None`) and a list of levels: its own list, its single level wrapped, or the empty list. |
| Rules.RuleScore | metview/style.py:149-150 | The score of a rule is at least the score of each of its conditions and equal to one of them. A rule with no conditions is an error, as `max` of an empty list is. |
| Rules.MakeRule | metview/style.py:132-147 | `param_type` defaults to scalar. The map styles default to the vector default for vector rules and to the scalar default otherwise. The cross-section styles default to the map styles. The difference styles default to `default_diff`. |
| Rules.FindStyle | metview/style.py:152-160 | `""` and `"map"` pick the first map style, `"diff"` the first difference style and `"xs"` the first cross-section style. Any other plot type yields no style. An empty selected list is an error. |
| Rules.DefaultStyleNames | metview/style.py:138-160 | For a rule with no style lists, map and cross-section plots resolve to the kind's default (`default_mwind` for vector rules, otherwise `default_mcont`), and difference plots to `default_diff`. |
| StyleDbs.GetStyle | metview/style.py:208-212 | A known name gives its style. An unknown name gives the style called `default`, if there is one, and none otherwise. |
| StyleDbs.BestRuleIsFirstStrictMax | metview/style.py:214-222 | No rule is selected exactly when every score is zero. Otherwise rule i is selected exactly when its score is the maximum, is positive, and is strictly greater than every earlier score. |
| StyleDbs.GetParamStyle | metview/style.py:214-235 | A rule without conditions anywhere in the database makes resolution fail with the `max` of an empty list error, whatever the other rules score. The only other failure is an empty selected style list. |
| StyleDbs.GetParamStyleUsesChosenRule | metview/style.py:214-228 | When a rule is chosen, the result is the style named by that rule for the plot type. It is none if the rule names no style for the plot type or names an unloaded style. |
| StyleDbs.GetParamStyleFallsBack | metview/style.py:229-233 | When no rule scores above zero, the result is the scalar or vector default style. |
| StyleDbs.ChosenOrNoneMatches | metview/style.py:214-233 | Exactly one of the two cases holds: a first strictly best rule exists, or no rule matches. |
| StyleDbs.DecodeStyle | metview/style.py:278-296 | A non-list entry is wrapped in a list. A single mapping with several keys, or whose only key is not a known verb, becomes one `mcoast` directive with that mapping as params. A single empty mapping is an error, because the source indexes its first key. Otherwise each element must be a single-entry mapping `verb: params`, and any other shape is an error. The style keeps its name. |
| StyleDbs.DecodeEncode | metview/style.py:281-296 | Decoding the encoding of a style gives the style back. The exception is a single directive with an unknown verb, which is read back as coastline shorthand (`StyleDbs.DecodeUnknownSingleVerb`). |
| StyleDbs.DecodeUnknownSingleVerb | metview/style.py:286-291 | A single `{verb: params}` entry whose verb is not a known verb decodes as an `mcoast` directive whose params are the whole entry. |
| StyleDbs.DecodeSingleDirective | metview/style.py:286-295 | A single-entry mapping keyed by a known verb decodes to that one directive. |
| StyleDbs.MergeStyles | metview/style.py:277-296 | Merging succeeds exactly when every entry of the file decodes, and every name defined before stays defined. |
| StyleDbs.MergeStylesEntry | metview/style.py:277-296 | After a successful merge, each name in the file maps to the decoding of its entry in the file, and every other name keeps its old style. |
| StyleDbs.MakeDefaults | metview/style.py:254-265 | The three default names are added, each as a one-directive style with empty params (`mcont`, `mwind`, `mcont`), but only where the name is not already defined. Existing styles are kept. |
| StyleDbs.LoadStyles | metview/style.py:277-299 | Loading a style file succeeds exactly when every entry decodes. Afterwards the three defaults are always defined. |
| StyleDbs.LoadStylesEntry | metview/style.py:254-299 | After loading, a name is defined exactly when it was before, the file defines it, or it is one of the three default names. A name in the file maps to its decoded entry, even when it is a default name. Any other old name keeps its style. A default name defined nowhere gets its made default: `mcont` for `default_mcont` and `default_diff`, `mwind` for `default_mwind`. |
| StyleDbs.LoadParams | metview/style.py:301-314 | Loading a rule file succeeds exactly when every style name every rule refers to is loaded. Its rules are appended in order. A failure is `InvalidStyle` naming the first unloaded style of the first rule that refers to one. |
| StyleDbs.UnknownStyleFails | metview/style.py:305-312 | If rule i is the first rule of a directory's rule file that refers to an unloaded style, loading the directory fails with `InvalidStyle` naming the first unloaded style of rule i. |
| StyleDbs.LoadLayer | metview/style.py:267-275 | A layer without a style file changes nothing, and its rule file is then ignored. A layer with a style file loads exactly when its style file decodes and every style its rules refer to is defined once that file is loaded. If the style file loads but a rule does not, the failure is `InvalidStyle` naming the first unloaded style of the first such rule. A loaded layer keeps all earlier names, guarantees the defaults, and appends its rules after the earlier ones. |
| StyleDbs.LoadLayers | metview/style.py:176-196 | Loading directories one after another never drops a style name, and the rules already loaded stay in front. |
| StyleDbs.LoadLayersSnoc | metview/style.py:176-196 | Loading one more directory gives the earlier failure unchanged, or else loads that directory into the database built so far. |
| StyleDbs.LoadLayersFirstFailure | metview/style.py:176-196 | If the directories before directory k load and directory k fails, loading all of them fails with directory k's error, whatever follows. |
| StyleDbs.OpenStyleDb | metview/style.py:176-196 | Once the system directory has a style file, an opened database holds the three default styles. |
| StyleDbs.OpenStyleDbLoadsInOrder | metview/style.py:176-196 | Opening is loading the local directory (if any), then the custom one (if any), then the system one, each into the result of the previous load. The first failure stops the opening. So opening succeeds exactly when each of these loads succeeds. |
| StyleDbs.OpenStyleDbFailsOnUnknownStyle | metview/style.py:180-196 | If the directories before one of the three load and that directory's rules refer to a style that is not loaded (`InvalidStyle(n)`), opening the database fails with that same `InvalidStyle(n)`. |
| StyleDbs.LoadLayersLastDefinitionWins | metview/style.py:176-196 | After loading a sequence of layers, a name defined by some layer's style file maps to the style from the last layer that defines it. |
| StyleDbs.LoadLayersHasDefaults | metview/style.py:254-265 | Once any layer has a style file, the three default styles are defined. |
| StyleDbs.SystemStylesWin | metview/style.py:180-196 | A style the system directory defines is the one the database holds, whatever the local and custom directories say. |
| StyleDbs.RulesInLoadOrder | metview/style.py:180-196 | The rules are the local rules, then the custom rules, then the system rules. |
| MapConfs.StripCoastlinesAsWritten | metview/style.py:335-337 | The area params lose exactly the key spelled `coastlines`. Other keys are kept, including other spellings. |
| MapConfs.StripCoastlines | metview/style.py:335-337 | No remaining key lower-cases to `coastlines`, and every other key keeps its value. |
| MapConfs.MakeGeoViewAsWritten | metview/style.py:332-340 | It fails on non-mapping area params (`NotAMapping`) and on a missing style. Otherwise it holds the style and the area params minus the one key spelled `coastlines`. |
| MapConfs.GeoViewKeepsUpperCaseCoastlines | metview/style.py:335-337 | For area params `{"COASTLINES": "off"}` the view as written keeps the key, and the corrected view drops it. |
| MapConfs.MakeGeoView | metview/style.py:332-340 | The corrected `GeoView`: it fails on non-mapping area params and on a missing style. Otherwise it holds the style and the area params with every key that lower-cases to `coastlines` removed and every other key kept. |
| MapConfs.AddAreasEntry | metview/style.py:399-407 | After loading an area list, a name is defined exactly when it was before or the list names it. Each name listed maps to its last configuration in the list, and other areas are kept. |
| MapConfs.LoadAreasEntry | metview/style.py:399-407 | The same for an optional areas document: only a list adds names, each holding its last configuration there, and other areas are kept. |
| MapConfs.LoadAreas | metview/style.py:399-407 | A missing file or a non-list document adds nothing. A list succeeds exactly when every item is a single-entry mapping. |
| MapConfs.OpenMapConf | metview/style.py:388-407 | A map configuration opens exactly when its style database (local, custom and system style files, no rule files) opens and every area file present loads. A failure of the style database is the failure of the whole. The database held is that style database. A map configuration that opens has loaded the system areas file, and keeps every area it defines. With no local or custom directory, the areas are exactly the system ones. Once the system directory has a style file, the three default styles exist. |
| MapConfs.AreasLastFileWins | metview/style.py:388-407 | An area is defined exactly when the system, custom or local areas file defines it. It holds the configuration from the last of these files that defines it, in the reading order system, custom, local. So local beats custom, and custom beats system. |
| MapConfs.LocalAreasWin | metview/style.py:392-397 | An area the local directory defines is the one the map configuration holds. |
| MapConfs.MapStylesHaveNoRules | metview/style.py:23-24 | The map style database is built without rule files and holds no rules. |
| MapConfs.Find | metview/style.py:409-418 | The area defaults to `base` and the style to `grey_light_base`. A configured, non-empty area is used as is. An unconfigured or empty area whose upper-cased name is built in becomes a by-name descriptor. The style is looked up with `get_style`. It fails when the area has no length. |
| MapConfs.BuiltinAreaByName | metview/style.py:414-415 | An unconfigured built-in area is described by name, with the caller's spelling. |
| MapConfs.View | metview/style.py:420-426 | A failed `find` fails the view. For a plot type other than `stamp`, the view is the `GeoView` of the found area and style. With no style found it fails with `NoStyle`, unless a non-stamp view has non-mapping area params, which fail first. A view that succeeds had a mapping area. |
| MapConfs.StampUpdate | metview/style.py:100-107 | Updating a style with the stamp overrides succeeds exactly when it has no directive or its first directive has mapping params, and otherwise fails with `NotAMapping`. On success the name, the length and the first verb are kept. The first directive's params are its old params with `map_grid` and `map_label` set to `off`. Later directives are unchanged. |
| MapConfs.StampViewSucceeds | metview/style.py:420-426 | A `stamp` view of a found area and style succeeds exactly when a style was found, the area is a mapping, and the style's first directive, if any, has mapping params. No style gives `NoStyle`. Non-mapping first params give `NotAMapping`. |
| MapConfs.StampTurnsOffGridAndLabels | metview/style.py:420-426 | A successful `stamp` view holds the found area's params with coastline keys removed. Its style keeps the found style's name, length and first verb. The first directive's params are the old ones with `map_grid` and `map_label` set to `off`, and the other directives are unchanged. |

## Left out

- `Visdef.clone` and `Style.clone` (`metview/style.py:62-63`, `94-95`) are the identity on immutable values. Copy-on-write is stated by the `owner` part of `Visdefs.Update`.
- The Magics builders (`mv.mcont`, …, `mv.geoview`) and `GeoView.to_request` produce requests in a library that is not part of this model. They become `Request(verb, args)` values, and `GeoView.to_request` is left out.
- File existence, file reading and YAML parsing are left out. Each layer arrives as an optional parsed style file, an optional rule file and an optional area document.
- A style file that exists but is empty makes the source fail on `None.items()`. Parsed style files are always entry lists, so this case is not modelled.
- A style file arrives as a parsed YAML mapping, in file order, with each style name once (`StyleDbs.StyleFile`). How the YAML loader treats a name repeated in the file is part of parsing and is not modelled.
- Rule files arrive as typed `RuleConf` records. So the shape errors the source would raise while reading them are not modelled: a missing `match`, a non-dict record, a non-list style list.
- The process-wide `_DB` cache, `get_db`, `set_config` and the `LOCAL_CONF_PATH`/`CUSTOM_CONF_PATH` globals are left out. The directories are explicit arguments of `StyleDbs.OpenStyleDb` and `MapConfs.OpenMapConf`.
- `StyleDb.style` and `StyleDb.visdef` read `fs.param_info` from a fieldset, which is not part of this model.
- `param.match` is not part of this model. It is the abstract `Matcher` parameter, and scores are natural numbers.
- Logging, `print`, `__str__`, `__repr__`, `StyleDb.print`, `StyleDb.is_empty` and `ParamStyle.info_name` are left out because they only serve display. `ParamStyle.__str__` refers to attributes that do not exist.
- `Strings.Lower` and `Strings.Upper` convert ASCII letters only. Python's `str.lower` and `str.upper` also convert other Unicode letters.
- Visdefs.Update: with `inplace` set, a failure part-way leaves the earlier directives changed in the source. The model returns only the failure.
- StyleDbs.MakeDefaults: the source stores a bare `Visdef` where a directive list is expected (`metview/style.py:262`). A default style therefore cannot be cloned, updated or turned into requests there. The model stores a one-directive list.
- MapConfs.MakeGeoView: this is the corrected `GeoView.__init__`, which removes every key that lower-cases to `coastlines`. The code as written keeps keys such as `COASTLINES` (see Findings). `MapConfs.MakeGeoViewAsWritten` models that behaviour.
- MapConfs.View: builds its view with the corrected `MapConfs.MakeGeoView`. So a configured area carrying `COASTLINES` loses that key here but keeps it in the source.
- MapConfs.MakeGeoView (and MapConfs.MakeGeoViewAsWritten): with no style the source dereferences `None` at `metview/style.py:339-340`. The model reports this as the `NoStyle` failure, and likewise for a `stamp` view without a style.
- `assert` statements, which Python may disable, are modelled as always active.

## Findings

| source | as written | input that shows it | evidently intended | confidence | as-written member | corrected member |
|---|---|---|---|---|---|---|
| metview/style.py:335-337 | When some key lower-cases to `coastlines`, the code removes only the key spelled exactly `coastlines`. | Area params `{"COASTLINES": "off"}` keep their `COASTLINES` key (`MapConfs.GeoViewKeepsUpperCaseCoastlines`). | Remove every key that lower-cases to `coastlines`, because coastlines always come from the resolved style. | medium; not executed | MapConfs.StripCoastlinesAsWritten, MapConfs.MakeGeoViewAsWritten | MapConfs.StripCoastlines, MapConfs.MakeGeoView |

=== FILE: mapconfs.dfy ===
/** Map views: named areas plus a coastline style from the "map" style database. */
module MapConfs {
  import opened Wrappers
  import opened Strings
  import opened Nodes
  import opened Visdefs
  import opened Rules
  import opened StyleDbs

  /** The area names the renderer knows without configuration. */
  const BuiltinAreas: seq<string> := [
    "ANTARCTIC", "ARCTIC", "AUSTRALASIA", "CENTRAL_AMERICA", "CENTRAL_EUROPE",
    "EAST_TROPIC", "EASTERN_ASIA", "EQUATORIAL_PACIFIC", "EURASIA", "EUROPE",
    "GLOBAL", "MIDDLE_EAST_AND_INDIA", "NORTH_AMERICA", "NORTH_ATLANTIC",
    "NORTH_EAST_EUROPE", "NORTH_POLE", "NORTH_WEST_EUROPE", "NORTHERN_AFRICA",
    "PACIFIC", "SOUTH_AMERICA", "SOUTH_ATLANTIC_AND_INDIAN_OCEAN",
    "SOUTH_EAST_ASIA_AND_INDONESIA", "SOUTH_EAST_EUROPE", "SOUTH_POLE",
    "SOUTH_WEST_EUROPE", "SOUTHERN_AFRICA", "SOUTHERN_ASIA", "WEST_TROPIC",
    "WESTERN_ASIA"]

  const DefaultArea: string := "base"
  const DefaultCoastStyle: string := "grey_light_base"

  /** A map view: area parameters and the coastline style drawn with them. */
  datatype GeoView = GeoView(params: map<string, Node>, style: Style)

  /** The map configuration: areas by name and the "map" style database. */
  datatype MapConf = MapConf(areas: map<string, Node>, db: StyleDb)

  /** One configuration directory for maps: its map style file and its areas
      file (the parsed YAML document), each `None` when the file does not exist. */
  datatype MapLayer = MapLayer(styleFile: Option<StyleFile>, areaFile: Option<Node>)

  /** What MapConf.find returns: the area parameters and the style, if any. */
  datatype Found = Found(area: Node, style: Option<Style>)

  // ---------------------------------------------------------------------------
  // GeoView

  /** The key clean-up of GeoView.__init__ as written: whenever some key
      lower-cases to "coastlines", the key spelt exactly "coastlines" is popped. */
  function StripCoastlinesAsWritten(params: map<string, Node>): (r: map<string, Node>)
    ensures r == params - {"coastlines"}
  {
    if exists k :: k in params && Lower(k) == "coastlines" then params - {"coastlines"} else params
  }

  /** The clean-up as evidently intended: every key that lower-cases to
      "coastlines" is removed, whatever its case. */
  function StripCoastlines(params: map<string, Node>): (r: map<string, Node>)
    ensures forall k :: k in r <==> k in params && Lower(k) != "coastlines"
    ensures forall k :: k in r ==> r[k] == params[k]
  {
    map k | k in params && Lower(k) != "coastlines" :: params[k]
  }

  /** GeoView(params, style) as written: the area parameters must be a dict, a
      `None` style fails because the source's check dereferences it, and the
      parameters lose only a key spelt exactly "coastlines". */
  function MakeGeoViewAsWritten(params: Node, style: Option<Style>): (r: Result<GeoView>)
    ensures r.Success? <==> params.Dict? && style.Some?
    ensures !params.Dict? ==> r == Failure(NotAMapping)
    ensures r.Success? ==> r.value.style == style.value && r.value.params == params.fields - {"coastlines"}
  {
    if !params.Dict? then Failure(NotAMapping)
    else if style.None? then Failure(NoStyle)
    else Success(GeoView(StripCoastlinesAsWritten(params.fields), style.value))
  }

  /** The view as written keeps an upper-case "COASTLINES" area parameter, which
      the intended view drops; otherwise the two agree. */
  lemma GeoViewKeepsUpperCaseCoastlines(s: Style)
    ensures "COASTLINES" in StripCoastlinesAsWritten(map["COASTLINES" := Text("off")])
    ensures "COASTLINES" !in StripCoastlines(map["COASTLINES" := Text("off")])
    ensures MakeGeoViewAsWritten(Dict(map["COASTLINES" := Text("off")]), Some(s)).Success?
    ensures "COASTLINES" in MakeGeoViewAsWritten(Dict(map["COASTLINES" := Text("off")]), Some(s)).value.params
    ensures MakeGeoView(Dict(map["COASTLINES" := Text("off")]), Some(s)).value.params == map[]
  {
  }

  /** GeoView(params, style) as evidently intended: as above, but every key that
      lower-cases to "coastlines" is removed. The rest of the model uses this one. */
  function MakeGeoView(params: Node, style: Option<Style>): (r: Result<GeoView>)
    ensures r.Success? <==> params.Dict? && style.Some?
    ensures r.Success? ==> r.value.style == style.value
    ensures r.Success? ==> forall k :: k in r.value.params ==> Lower(k) != "coastlines"
    ensures r.Success? ==> forall k :: k in params.fields && Lower(k) != "coastlines" ==>
      k in r.value.params && r.value.params[k] == params.fields[k]
    ensures r.Success? ==> r.value.params == StripCoastlines(params.fields)
  {
    if !params.Dict? then Failure(NotAMapping)
    else if style.None? then Failure(NoStyle)
    else Success(GeoView(StripCoastlines(params.fields), style.value))
  }

  // ---------------------------------------------------------------------------
  // Areas

  /** One item of an areas file: a one-entry dict `{name: conf}`. */
  function DecodeArea(item: Node): (r: Result<(string, Node)>)
    ensures r.Success? <==> item.Dict? && |item.fields| == 1
    ensures r.Success? ==> item.fields == map[r.value.0 := r.value.1]
  {
    if !item.Dict? then Failure(NotAMapping)
    else if |item.fields| != 1 then Failure(NotSingleEntry)
    else
      var name := SingleKey(item.fields);
      Success((name, item.fields[name]))
  }

  function AddAreas(areas: map<string, Node>, items: seq<Node>): (r: Result<map<string, Node>>)
    ensures r.Success? <==> forall i :: 0 <= i < |items| ==> DecodeArea(items[i]).Success?
    ensures r.Success? ==> areas.Keys <= r.value.Keys
    decreases |items|
  {
    if items == [] then Success(areas)
    else
      var init := items[..|items| - 1];
      assert forall i :: 0 <= i < |init| ==> init[i] == items[i];
      var m :- AddAreas(areas, init);
      var entry :- DecodeArea(items[|items| - 1]);
      Success(m[entry.0 := entry.1])
  }

  /** The configuration the last item naming `n` carries, if an item names it. */
  function LastArea(items: seq<Node>, n: string): Option<Node>
    decreases |items|
  {
    if items == [] then None
    else
      var d := DecodeArea(items[|items| - 1]);
      if d.Success? && d.value.0 == n then Some(d.value.1)
      else LastArea(items[..|items| - 1], n)
  }

  /** A name the items define holds the configuration of the last item naming
      it; any other name keeps what it had. */
  lemma {:induction false} AddAreasEntry(areas: map<string, Node>, items: seq<Node>, n: string)
    requires AddAreas(areas, items).Success?
    ensures n in AddAreas(areas, items).value <==> n in areas || LastArea(items, n).Some?
    ensures LastArea(items, n).Some? ==>
      n in AddAreas(areas, items).value && AddAreas(areas, items).value[n] == LastArea(items, n).value
    ensures LastArea(items, n).None? && n in areas ==>
      n in AddAreas(areas, items).value && AddAreas(areas, items).value[n] == areas[n]
    decreases |items|
  {
    if items != [] {
      AddAreasEntry(areas, items[..|items| - 1], n);
    }
  }

  /** MapConf._load_areas: a file holding a list adds its items in order, later
      names replacing earlier ones; a missing file or one that does not hold a
      list (an empty file, say) adds nothing. */
  function LoadAreas(areas: map<string, Node>, file: Option<Node>): (r: Result<map<string, Node>>)
    ensures file.None? || !file.value.List? ==> r == Success(areas)
    ensures file.Some? && file.value.List? ==>
      (r.Success? <==> forall i :: 0 <= i < |file.value.items| ==> DecodeArea(file.value.items[i]).Success?)
    ensures r.Success? ==> areas.Keys <= r.value.Keys
  {
    match file
    case None => Success(areas)
    case Some(d) => if d.List? then AddAreas(areas, d.items) else Success(areas)
  }

  /** The configuration an areas file gives the name `n`, if it names it. */
  function FileArea(file: Option<Node>, n: string): Option<Node>
  {
    if file.Some? && file.value.List? then LastArea(file.value.items, n) else None
  }

  /** After loading an areas file, a name it defines holds its configuration
      there, any other name keeps what it had, and no other name appears. */
  lemma LoadAreasEntry(areas: map<string, Node>, file: Option<Node>, n: string)
    requires LoadAreas(areas, file).Success?
    ensures n in LoadAreas(areas, file).value <==> n in areas || FileArea(file, n).Some?
    ensures FileArea(file, n).Some? ==> LoadAreas(areas, file).value[n] == FileArea(file, n).value
    ensures FileArea(file, n).None? && n in areas ==> LoadAreas(areas, file).value[n] == areas[n]
  {
    if file.Some? && file.value.List? {
      AddAreasEntry(areas, file.value.items, n);
    }
  }

  /** An areas file that _load_areas reads without raising: absent, not a list,
      or a list of one-entry dicts. */
  ghost predicate AreaFileLoads(file: Option<Node>)
  {
    file.None? || !file.value.List? || forall i :: 0 <= i < |file.value.items| ==> DecodeArea(file.value.items[i]).Success?
  }

  /** The style part of a map directory: its style file, and no rule file. */
  function MapStyleLayer(m: MapLayer): Layer
  {
    Layer(m.styleFile, None)
  }

  function StyleLayerOf(m: Option<MapLayer>): Option<Layer>
  {
    if m.Some? then Some(MapStyleLayer(m.value)) else None
  }

  /** MapConf(): the map style database (local, custom, system), then the areas
      in the opposite order: system, custom, local. */
  function OpenMapConf(local: Option<MapLayer>, custom: Option<MapLayer>, system: MapLayer): (r: Result<MapConf>)
    ensures r.Success? <==>
      && OpenStyleDb(StyleLayerOf(local), StyleLayerOf(custom), MapStyleLayer(system)).Success?
      && AreaFileLoads(system.areaFile)
      && (custom.Some? ==> AreaFileLoads(custom.value.areaFile))
      && (local.Some? ==> AreaFileLoads(local.value.areaFile))
    ensures OpenStyleDb(StyleLayerOf(local), StyleLayerOf(custom), MapStyleLayer(system)).Failure? ==>
      r == Failure(OpenStyleDb(StyleLayerOf(local), StyleLayerOf(custom), MapStyleLayer(system)).error)
    ensures r.Success? ==> r.value.db == OpenStyleDb(StyleLayerOf(local), StyleLayerOf(custom), MapStyleLayer(system)).value
    ensures r.Success? ==> LoadAreas(map[], system.areaFile).Success?
    ensures r.Success? ==> LoadAreas(map[], system.areaFile).value.Keys <= r.value.areas.Keys
    ensures r.Success? && local.None? && custom.None? ==> r.value.areas == LoadAreas(map[], system.areaFile).value
    ensures r.Success? && system.styleFile.Some? ==> {ScalarDefault, VectorDefault, DiffDefault} <= r.value.db.styles.Keys
  {
    var db :- OpenStyleDb(StyleLayerOf(local), StyleLayerOf(custom), MapStyleLayer(system));
    var a0 :- LoadAreas(map[], system.areaFile);
    var a1 :- if custom.Some? then LoadAreas(a0, custom.value.areaFile) else Success(a0);
    var a2 :- if local.Some? then LoadAreas(a1, local.value.areaFile) else Success(a1);
    Success(MapConf(a2, db))
  }

  /** The local directory's areas file is read last, so an area it defines wins
      over the custom and system definitions. */
  lemma LocalAreasWin(local: Option<MapLayer>, custom: Option<MapLayer>, system: MapLayer, items: seq<Node>, n: string)
    requires OpenMapConf(local, custom, system).Success?
    requires local.Some? && local.value.areaFile == Some(List(items))
    requires LastArea(items, n).Some?
    ensures n in OpenMapConf(local, custom, system).value.areas
    ensures OpenMapConf(local, custom, system).value.areas[n] == LastArea(items, n).value
  {
    var a0 := LoadAreas(map[], system.areaFile).value;
    var a1 := if custom.Some? then LoadAreas(a0, custom.value.areaFile).value else a0;
    AddAreasEntry(a1, items, n);
  }

  /** The configuration the areas file of an optional directory gives `n`. */
  function LayerArea(m: Option<MapLayer>, n: string): Option<Node>
  {
    if m.Some? then FileArea(m.value.areaFile, n) else None
  }

  /** Areas files are read system, custom, local, so an area is defined exactly
      when one of them defines it, and it holds the configuration of the last
      of these files that defines it: local over custom over system. */
  lemma AreasLastFileWins(local: Option<MapLayer>, custom: Option<MapLayer>, system: MapLayer, n: string)
    requires OpenMapConf(local, custom, system).Success?
    ensures n in OpenMapConf(local, custom, system).value.areas <==>
      LayerArea(local, n).Some? || LayerArea(custom, n).Some? || FileArea(system.areaFile, n).Some?
    ensures LayerArea(local, n).Some? ==>
      OpenMapConf(local, custom, system).value.areas[n] == LayerArea(local, n).value
    ensures LayerArea(local, n).None? && LayerArea(custom, n).Some? ==>
      OpenMapConf(local, custom, system).value.areas[n] == LayerArea(custom, n).value
    ensures LayerArea(local, n).None? && LayerArea(custom, n).None? && FileArea(system.areaFile, n).Some? ==>
      OpenMapConf(local, custom, system).value.areas[n] == FileArea(system.areaFile, n).value
  {
    var a0 := LoadAreas(map[], system.areaFile).value;
    LoadAreasEntry(map[], system.areaFile, n);
    var a1 := if custom.Some? then LoadAreas(a0, custom.value.areaFile).value else a0;
    if custom.Some? {
      LoadAreasEntry(a0, custom.value.areaFile, n);
    }
    if local.Some? {
      LoadAreasEntry(a1, local.value.areaFile, n);
    }
  }

  /** The map style database is a StyleDb without rule files, loaded local, custom, system. */
  lemma MapStylesHaveNoRules(local: Option<MapLayer>, custom: Option<MapLayer>, system: MapLayer)
    requires OpenMapConf(local, custom, system).Success?
    ensures OpenMapConf(local, custom, system).value.db.rules == []
  {
    RulesInLoadOrder(StyleLayerOf(local), StyleLayerOf(custom), MapStyleLayer(system));
  }

  // ---------------------------------------------------------------------------
  // Look-ups

  /** MapConf.find: the area defaults to "base" and the style to
      "grey_light_base"; an area with no (or empty) configuration whose
      upper-cased name is a built-in area becomes a by-name area descriptor. */
  function Find(mc: MapConf, area: Option<string>, style: Option<string>): (r: Result<Found>)
    ensures var a := area.GetOr(DefaultArea);
      && (r.Success? <==> a !in mc.areas || Len(mc.areas[a]).Success?)
      && (r.Success? ==> r.value.style == GetStyle(mc.db, style.GetOr(DefaultCoastStyle)))
      && (r.Success? && a in mc.areas && Len(mc.areas[a]) != Success(0) ==> r.value.area == mc.areas[a])
      && (r.Success? && (a !in mc.areas || Len(mc.areas[a]) == Success(0)) && Upper(a) !in BuiltinAreas ==>
            r.value.area == Get(mc.areas, a, Dict(map[])))
      && (r.Success? && (a !in mc.areas || Len(mc.areas[a]) == Success(0)) && Upper(a) in BuiltinAreas ==>
            r.value.area == Dict(map["area_mode" := Text("name"), "area_name" := Text(a)]))
  {
    var areaName := area.GetOr(DefaultArea);
    var styleName := style.GetOr(DefaultCoastStyle);
    var a := Get(mc.areas, areaName, Dict(map[]));
    var n :- Len(a);
    var a' :=
      if n == 0 && Upper(areaName) in BuiltinAreas then
        // the source stores the caller's `area`, which is never None here: "BASE" is not built in
        assert area.Some? by { assert Upper(DefaultArea) == "BASE"; }
        Dict(map["area_mode" := Text("name"), "area_name" := Text(area.value)])
      else a;
    Success(Found(a', GetStyle(mc.db, styleName)))
  }

  /** The overrides of a "stamp" view: no grid and no labels on the first directive. */
  const StampOverride: Override := Mapping([("map_grid", Text("off")), ("map_label", Text("off"))])

  /** MapConf.view: the found area and style, with grid and labels turned off for
      a "stamp" plot, made into a GeoView. */
  function View(mc: MapConf, area: Option<string>, style: Option<string>, plotType: Option<string>): (r: Result<GeoView>)
    ensures Find(mc, area, style).Failure? ==> r == Failure(Find(mc, area, style).error)
    ensures Find(mc, area, style).Success? && plotType != Some("stamp") ==>
      r == MakeGeoView(Find(mc, area, style).value.area, Find(mc, area, style).value.style)
    ensures (&& Find(mc, area, style).Success? && Find(mc, area, style).value.style.None?
             && (plotType == Some("stamp") || Find(mc, area, style).value.area.Dict?)) ==> r == Failure(NoStyle)
    ensures r.Success? ==> Find(mc, area, style).Success? && Find(mc, area, style).value.area.Dict?
  {
    var f :- Find(mc, area, style);
    var s :-
      if plotType == Some("stamp") then
        if f.style.None? then Failure(NoStyle)
        else
          var u :- Update(f.style.value, [StampOverride], false);
          Success(Some(u.result))
      else Success(f.style);
    MakeGeoView(f.area, s)
  }

  /** The stamp overrides lower-case to themselves. */
  lemma StampOverrideLowered()
    ensures LowerKeys(StampOverride.entries) == map["map_grid" := Text("off"), "map_label" := Text("off")]
  {
    var e := StampOverride.entries;
    assert e[..1][..0] == [];
    assert Rekeyed(e[..1], Lower) == map[Lower("map_grid") := Text("off")];
    assert Lower("map_grid") == "map_grid";
    assert Lower("map_label") == "map_label";
  }

  /** The stamp overrides as the dict Style.update merges. */
  const StampParams: map<string, Node> := map["map_grid" := Text("off"), "map_label" := Text("off")]

  /** Updating a style with the stamp overrides merges grid and labels off into
      its first directive, keeping that directive's verb and other parameters,
      the style's name and the other directives; it fails exactly when the first
      directive's parameters are not a dict. */
  lemma StampUpdate(base: Style)
    ensures Update(base, [StampOverride], false).Success? <==> |base.visdefs| == 0 || base.visdefs[0].params.Dict?
    ensures Update(base, [StampOverride], false).Failure? ==> Update(base, [StampOverride], false).error == NotAMapping
    ensures Update(base, [StampOverride], false).Success? ==>
      var g := Update(base, [StampOverride], false).value.result;
      && g.name == base.name
      && |g.visdefs| == |base.visdefs|
      && (|base.visdefs| > 0 ==>
            && g.visdefs[0].verb == base.visdefs[0].verb
            && g.visdefs[0].params.Dict?
            && Overrides(base.visdefs[0].params.fields, StampParams, g.visdefs[0].params.fields))
      && (forall i :: 1 <= i < |base.visdefs| ==> g.visdefs[i] == base.visdefs[i])
  {
    StampOverrideLowered();
  }

  /** When a "stamp" view of a found area and style succeeds: there must be a
      style, the area must be a dict, and the style's first directive (if any)
      must have dict parameters for the update; each failure has its own error. */
  lemma StampViewSucceeds(mc: MapConf, area: Option<string>, style: Option<string>)
    requires Find(mc, area, style).Success?
    ensures var f := Find(mc, area, style).value;
      View(mc, area, style, Some("stamp")).Success? <==>
        && f.style.Some? && f.area.Dict?
        && (|f.style.value.visdefs| == 0 || f.style.value.visdefs[0].params.Dict?)
    ensures Find(mc, area, style).value.style.None? ==>
      View(mc, area, style, Some("stamp")) == Failure(NoStyle)
    ensures var f := Find(mc, area, style).value;
      f.style.Some? && |f.style.value.visdefs| > 0 && !f.style.value.visdefs[0].params.Dict? ==>
        View(mc, area, style, Some("stamp")) == Failure(NotAMapping)
  {
    var f := Find(mc, area, style).value;
    if f.style.Some? {
      StampUpdate(f.style.value);
    }
  }

  /** A "stamp" view draws the found style's first directive with grid and
      labels off, keeping its verb and other parameters, the style's name, the
      other directives and the found area's parameters. */
  lemma StampTurnsOffGridAndLabels(mc: MapConf, area: Option<string>, style: Option<string>)
    requires Find(mc, area, style).Success?
    ensures View(mc, area, style, Some("stamp")).Success? ==>
      var g := View(mc, area, style, Some("stamp")).value;
      var f := Find(mc, area, style).value;
      && f.style.Some? && f.area.Dict?
      && g.params == StripCoastlines(f.area.fields)
      && var base := f.style.value;
      && g.style.name == base.name
      && |g.style.visdefs| == |base.visdefs|
      && (|base.visdefs| > 0 ==>
            && g.style.visdefs[0].verb == base.visdefs[0].verb
            && g.style.visdefs[0].params.Dict?
            && Overrides(base.visdefs[0].params.fields, StampParams, g.style.visdefs[0].params.fields))
      && (forall i :: 1 <= i < |base.visdefs| ==> g.style.visdefs[i] == base.visdefs[i])
  {
    var f := Find(mc, area, style).value;
    var r := View(mc, area, style, Some("stamp"));
    if r.Success? {
      assert f.style.Some?;
      var base := f.style.value;
      var u := Update(base, [StampOverride], false);
      assert u.Success?;
      assert r == MakeGeoView(f.area, Some(u.value.result));
      StampUpdate(base);
    }
  }

  /** A built-in area that the configuration leaves undefined is named directly. */
  lemma BuiltinAreaByName(mc: MapConf, area: string, style: Option<string>)
    requires area !in mc.areas
    requires Upper(area) in BuiltinAreas
    ensures Find(mc, Some(area), style).Success?
    ensures Find(mc, Some(area), style).value.area
         == Dict(map["area_mode" := Text("name"), "area_name" := Text(area)])
  {
  }
}

=== FILE: nodes.dfy ===
/** The values a YAML configuration file parses to, and the few Python
    built-ins the style engine applies to them. */
module Nodes {
  import opened Wrappers

  /** A parsed YAML value. Mapping keys are assumed to be strings, and a mapping
      is kept as a Dafny map, which drops the insertion order a Python dict keeps;
      where that order decides an outcome, the entries are kept as a sequence instead. */
  datatype Node =
    | Null
    | Bool(b: bool)
    | Int(i: int)
    | Real(r: real)
    | Text(s: string)
    | List(items: seq<Node>)
    | Dict(fields: map<string, Node>)

  /** Python's `len(n)`: defined on dicts, lists and strings, a TypeError otherwise. */
  function Len(n: Node): (r: Result<nat>)
    ensures r.Success? <==> (n.Dict? || n.List? || n.Text?)
    ensures n.Dict? ==> r == Success(|n.fields|)
    ensures n.List? ==> r == Success(|n.items|)
    ensures n.Text? ==> r == Success(|n.s|)
  {
    match n
    case Dict(f) => Success(|f|)
    case List(xs) => Success(|xs|)
    case Text(s) => Success(|s|)
    case _ => Failure(NoLength)
  }

  /** Python's `d.get(k, default)`. */
  function Get(m: map<string, Node>, k: string, default: Node): (r: Node)
    ensures k in m ==> r == m[k]
    ensures k !in m ==> r == default
  {
    if k in m then m[k] else default
  }

  lemma SingletonKeys(m: map<string, Node>)
    requires |m| == 1
    ensures exists k :: m.Keys == {k}
  {
    assert |m.Keys| == 1;
    var k :| k in m.Keys;
    assert |m.Keys - {k}| == 0;
  }

  /** The key of a one-entry dict: `list(d.keys())[0]`, or the `k` of `((k, v),) = d.items()`. */
  function SingleKey(m: map<string, Node>): (k: string)
    requires |m| == 1
    ensures m.Keys == {k}
  {
    SingletonKeys(m);
    var k :| m.Keys == {k}; k
  }

  /** dict.update semantics: `after` is `before` with every entry of `upd` written over it. */
  ghost predicate Overrides(before: map<string, Node>, upd: map<string, Node>, after: map<string, Node>)
  {
    && after.Keys == before.Keys + upd.Keys
    && (forall k :: k in upd ==> after[k] == upd[k])
    && (forall k :: k in before && k !in upd ==> after[k] == before[k])
  }

  /** True when `entries[i]` is the last entry whose key `f` maps to the same name. */
  ghost predicate LastOfItsKey(entries: seq<(string, Node)>, f: string -> string, i: int)
    requires 0 <= i < |entries|
  {
    forall j :: i < j < |entries| ==> f(entries[j].0) != f(entries[i].0)
  }

  ghost predicate HasKey(entries: seq<(string, Node)>, f: string -> string, k: string) {
    exists i :: 0 <= i < |entries| && f(entries[i].0) == k
  }

  /** What `{f(k): v for k, v in entries}` is: every renamed key present, nothing
      else, and for colliding names the value of the later entry. */
  ghost predicate RekeyedFrom(entries: seq<(string, Node)>, f: string -> string, m: map<string, Node>) {
    && (forall i :: 0 <= i < |entries| ==> f(entries[i].0) in m)
    && (forall k :: k in m ==> HasKey(entries, f, k))
    && (forall i :: 0 <= i < |entries| && LastOfItsKey(entries, f, i) ==> m[f(entries[i].0)] == entries[i].1)
  }

  /** The dict comprehension `{f(k): v for k, v in entries}`, built in insertion order. */
  function Rekeyed(entries: seq<(string, Node)>, f: string -> string): (m: map<string, Node>)
    ensures RekeyedFrom(entries, f, m)
  {
    if entries == [] then map[]
    else
      var m0 := Rekeyed(entries[..|entries| - 1], f);
      RekeyedStep(entries, f, m0);
      m0[f(entries[|entries| - 1].0) := entries[|entries| - 1].1]
  }

  lemma RekeyedStep(entries: seq<(string, Node)>, f: string -> string, m0: map<string, Node>)
    requires |entries| > 0
    requires RekeyedFrom(entries[..|entries| - 1], f, m0)
    ensures RekeyedFrom(entries, f, m0[f(entries[|entries| - 1].0) := entries[|entries| - 1].1])
  {
    var m := m0[f(entries[|entries| - 1].0) := entries[|entries| - 1].1];
    RekeyedStepKeys(entries, f, m0);
    RekeyedStepValues(entries, f, m0);
  }

  lemma RekeyedStepKeys(entries: seq<(string, Node)>, f: string -> string, m0: map<string, Node>)
    requires |entries| > 0
    requires RekeyedFrom(entries[..|entries| - 1], f, m0)
    ensures forall i :: 0 <= i < |entries| ==> f(entries[i].0) in m0[f(entries[|entries| - 1].0) := entries[|entries| - 1].1]
    ensures forall k :: k in m0[f(entries[|entries| - 1].0) := entries[|entries| - 1].1] ==> HasKey(entries, f, k)
  {
    var n := |entries| - 1;
    var m := m0[f(entries[n].0) := entries[n].1];
    forall k | k in m
      ensures HasKey(entries, f, k)
    {
      if k == f(entries[n].0) {
        assert 0 <= n < |entries| && f(entries[n].0) == k;
      } else {
        RekeyedOldKey(entries, f, m0, k);
      }
    }
    forall i | 0 <= i < n
      ensures f(entries[i].0) in m0
    {
      assert entries[..n][i] == entries[i];
    }
  }

  lemma RekeyedOldKey(entries: seq<(string, Node)>, f: string -> string, m0: map<string, Node>, k: string)
    requires |entries| > 0
    requires forall k :: k in m0 ==> HasKey(entries[..|entries| - 1], f, k)
    requires k in m0
    ensures HasKey(entries, f, k)
  {
  }

  lemma RekeyedStepValues(entries: seq<(string, Node)>, f: string -> string, m0: map<string, Node>)
    requires |entries| > 0
    requires RekeyedFrom(entries[..|entries| - 1], f, m0)
    ensures forall i :: 0 <= i < |entries| && LastOfItsKey(entries, f, i) ==>
      var m := m0[f(entries[|entries| - 1].0) := entries[|entries| - 1].1];
      f(entries[i].0) in m && m[f(entries[i].0)] == entries[i].1
  {
    var init := entries[..|entries| - 1];
    var last := entries[|entries| - 1];
    var m := m0[f(last.0) := last.1];
    forall i | 0 <= i < |entries| && LastOfItsKey(entries, f, i)
      ensures f(entries[i].0) in m && m[f(entries[i].0)] == entries[i].1
    {
      if i < |init| {
        assert init[i] == entries[i];
        assert f(entries[|init|].0) != f(entries[i].0);
        assert LastOfItsKey(init, f, i) by {
          forall j | i < j < |init| ensures f(init[j].0) != f(init[i].0) {
            assert init[j] == entries[j];
          }
        }
      }
    }
  }
}

=== FILE: rules.dfy ===
/** Parameter-matching rules: ParamMatchCondition and ParamStyle. */
module Rules {
  import opened Wrappers
  import opened Nodes

  /** The built-in style names a rule falls back to (StyleDb's class constants). */
  const ScalarDefault: string := "default_mcont"
  const VectorDefault: string := "default_mwind"
  const DiffDefault: string := "default_diff"

  /** The field's own `param.match(info_name, level_type, levels)`, which lives
      on an object outside the model; it is taken as an arbitrary scoring function. */
  type Matcher = (Node, Node, Node) -> nat

  /** One record of a parameter-rule file, already parsed. A `None` field is a key
      the record does not have. */
  datatype RuleConf = RuleConf(
    conditions: seq<map<string, Node>>,
    paramType: Option<string>,
    styles: Option<seq<string>>,
    xsStyles: Option<seq<string>>,
    diffStyles: Option<seq<string>>)

  /** A loaded rule: its normalised match conditions and a style-name list per plot type. */
  datatype ParamStyle = ParamStyle(
    conditions: seq<map<string, Node>>,
    paramType: string,
    style: seq<string>,
    xsStyle: seq<string>,
    diffStyle: seq<string>)

  /** A scalar `levels` entry of a condition becomes a one-element list; everything else is kept. */
  function NormalizeCondition(c: map<string, Node>): (r: map<string, Node>)
    ensures r.Keys == c.Keys
    ensures forall k :: k in c && k != "levels" ==> r[k] == c[k]
    ensures "levels" in c && c["levels"].List? ==> r["levels"] == c["levels"]
    ensures "levels" in c && !c["levels"].List? ==> r["levels"] == List([c["levels"]])
  {
    if "levels" in c && !c["levels"].List? then c["levels" := List([c["levels"]])] else c
  }

  /** Normalising a second time changes nothing: after the first pass `levels` is always a list. */
  lemma NormalizeConditionIdempotent(c: map<string, Node>)
    ensures NormalizeCondition(NormalizeCondition(c)) == NormalizeCondition(c)
    ensures "levels" in c ==> NormalizeCondition(c)["levels"].List?
  {
  }

  /** The score of one condition: the field is asked with the condition's
      `info_name` (default ""), `level_type` (default None) and `levels` (default []). */
  function ConditionScore(c: map<string, Node>, field: Matcher): (r: nat)
    ensures c == map[] ==> r == field(Text(""), Null, List([]))
  {
    field(Get(c, "info_name", Text("")), Get(c, "level_type", Null), Get(c, "levels", List([])))
  }

  /** The condition keys the field is asked about; any other key is ignored. */
  const MatchKeys: set<string> := {"info_name", "level_type", "levels"}

  /** Two conditions that agree on the three match keys score the same. */
  lemma ConditionScoreReadsOnlyMatchKeys(c1: map<string, Node>, c2: map<string, Node>, field: Matcher)
    requires forall k :: k in MatchKeys ==> (k in c1 <==> k in c2) && (k in c1 ==> c1[k] == c2[k])
    ensures ConditionScore(c1, field) == ConditionScore(c2, field)
  {
  }

  /** A loaded condition always asks the field with a list of levels: the
      condition's own list, its single level wrapped, or the empty list. */
  lemma NormalizedConditionScore(c: map<string, Node>, field: Matcher)
    ensures ConditionScore(NormalizeCondition(c), field)
         == field(Get(c, "info_name", Text("")), Get(c, "level_type", Null),
                  if "levels" !in c then List([])
                  else if c["levels"].List? then c["levels"]
                  else List([c["levels"]]))
  {
  }

  /** Python's `max(xs)` of a non-empty list. */
  function Max(xs: seq<nat>): (r: nat)
    requires |xs| > 0
    ensures forall i :: 0 <= i < |xs| ==> xs[i] <= r
    ensures exists i :: 0 <= i < |xs| && xs[i] == r
  {
    if |xs| == 1 then xs[0]
    else
      var m := Max(xs[1..]);
      assert forall i :: 1 <= i < |xs| ==> xs[i] == xs[1..][i - 1];
      if xs[0] >= m then xs[0] else m
  }

  function ConditionScores(conds: seq<map<string, Node>>, field: Matcher): (r: seq<nat>)
    ensures |r| == |conds|
    ensures forall i :: 0 <= i < |conds| ==> r[i] == ConditionScore(conds[i], field)
  {
    seq(|conds|, i requires 0 <= i < |conds| => ConditionScore(conds[i], field))
  }

  /** ParamStyle.match: the best score among the rule's alternative conditions;
      `max` of an empty list raises. */
  function RuleScore(p: ParamStyle, field: Matcher): (r: Result<nat>)
    ensures r.Success? <==> |p.conditions| > 0
    ensures r.Success? ==> forall i :: 0 <= i < |p.conditions| ==> ConditionScore(p.conditions[i], field) <= r.value
    ensures r.Success? ==> exists i :: 0 <= i < |p.conditions| && ConditionScore(p.conditions[i], field) == r.value
  {
    if |p.conditions| == 0 then Failure(EmptyMatch)
    else Success(Max(ConditionScores(p.conditions, field)))
  }

  /** Builds a rule from its record, filling in the defaults for absent keys. */
  function MakeRule(conf: RuleConf): (p: ParamStyle)
    ensures |p.conditions| == |conf.conditions|
    ensures forall i :: 0 <= i < |conf.conditions| ==> p.conditions[i] == NormalizeCondition(conf.conditions[i])
    ensures conf.paramType.None? ==> p.paramType == "scalar"
    ensures conf.paramType.Some? ==> p.paramType == conf.paramType.value
    ensures conf.styles.Some? ==> p.style == conf.styles.value
    ensures conf.styles.None? && p.paramType == "vector" ==> p.style == [VectorDefault]
    ensures conf.styles.None? && p.paramType != "vector" ==> p.style == [ScalarDefault]
    ensures conf.xsStyles.Some? ==> p.xsStyle == conf.xsStyles.value
    ensures conf.xsStyles.None? ==> p.xsStyle == p.style
    ensures conf.diffStyles.Some? ==> p.diffStyle == conf.diffStyles.value
    ensures conf.diffStyles.None? ==> p.diffStyle == [DiffDefault]
  {
    var conds := seq(|conf.conditions|, i requires 0 <= i < |conf.conditions| => NormalizeCondition(conf.conditions[i]));
    var paramType := conf.paramType.GetOr("scalar");
    var default := if paramType == "vector" then VectorDefault else ScalarDefault;
    var style := conf.styles.GetOr([default]);
    ParamStyle(conds, paramType, style, conf.xsStyles.GetOr(style), conf.diffStyles.GetOr([DiffDefault]))
  }

  /** Every style name a rule refers to, in the order the loader checks them. */
  function ReferencedStyles(p: ParamStyle): seq<string>
  {
    p.style + p.xsStyle + p.diffStyle
  }

  /** The style name a rule uses for a plot type: "" and "map" use the map list,
      "diff" the difference list and "xs" the cross-section list; only the first
      name of a list is used, and any other plot type has no style. */
  function FindStyle(p: ParamStyle, plotType: string): (r: Result<Option<string>>)
    ensures plotType == "" || plotType == "map" ==>
      if |p.style| > 0 then r == Success(Some(p.style[0])) else r == Failure(EmptyStyleList)
    ensures plotType == "diff" ==>
      if |p.diffStyle| > 0 then r == Success(Some(p.diffStyle[0])) else r == Failure(EmptyStyleList)
    ensures plotType == "xs" ==>
      if |p.xsStyle| > 0 then r == Success(Some(p.xsStyle[0])) else r == Failure(EmptyStyleList)
    ensures plotType !in {"", "map", "diff", "xs"} ==> r == Success(None)
    ensures r.Success? && r.value.Some? ==> r.value.value in ReferencedStyles(p)
  {
    if plotType == "" || plotType == "map" then First(p.style)
    else if plotType == "diff" then First(p.diffStyle)
    else if plotType == "xs" then First(p.xsStyle)
    else Success(None)
  }

  function First(names: seq<string>): Result<Option<string>>
  {
    if |names| > 0 then Success(Some(names[0])) else Failure(EmptyStyleList)
  }

  /** With no style keys in the record, every plot type of the map family and
      the cross-section resolve to the kind's built-in default, and "diff" to the
      difference default. */
  lemma DefaultStyleNames(conf: RuleConf, plotType: string)
    requires conf.styles.None? && conf.xsStyles.None? && conf.diffStyles.None?
    ensures plotType in {"", "map", "xs"} ==>
      FindStyle(MakeRule(conf), plotType)
        == Success(Some(if conf.paramType == Some("vector") then VectorDefault else ScalarDefault))
    ensures plotType == "diff" ==> FindStyle(MakeRule(conf), plotType) == Success(Some(DiffDefault))
  {
  }
}

=== FILE: strings.dfy ===
/** Case conversion of identifiers. Only the ASCII letters change case; every
    name the style engine compares (parameter keys, area names, the word
    "text") is ASCII. */
module Strings {

  function ToLower(c: char): (r: char)
    ensures 'A' <= c <= 'Z' ==> 'a' <= r <= 'z'
    ensures !('A' <= c <= 'Z') ==> r == c
  {
    if 'A' <= c <= 'Z' then (c as int + 32) as char else c
  }

  function ToUpper(c: char): (r: char)
    ensures 'a' <= c <= 'z' ==> 'A' <= r <= 'Z'
    ensures !('a' <= c <= 'z') ==> r == c
  {
    if 'a' <= c <= 'z' then (c as int - 32) as char else c
  }

  /** Python's `s.lower()`, restricted to ASCII. */
  function Lower(s: string): (r: string)
    ensures |r| == |s|
    ensures forall i :: 0 <= i < |s| ==> r[i] == ToLower(s[i])
  {
    seq(|s|, i requires 0 <= i < |s| => ToLower(s[i]))
  }

  /** Python's `s.upper()`, restricted to ASCII. */
  function Upper(s: string): (r: string)
    ensures |r| == |s|
    ensures forall i :: 0 <= i < |s| ==> r[i] == ToUpper(s[i])
  {
    seq(|s|, i requires 0 <= i < |s| => ToUpper(s[i]))
  }
}

=== FILE: styledbs.dfy ===
/** The style database: named styles plus an ordered list of parameter rules,
    loaded from up to three configuration layers. */
module StyleDbs {
  import opened Wrappers
  import opened Nodes
  import opened Visdefs
  import opened Rules

  datatype StyleDb = StyleDb(rules: seq<ParamStyle>, styles: map<string, Style>)

  /** Each name occurs at most once in the entries. */
  predicate DistinctNames(entries: seq<(string, Node)>)
  {
    forall i, j :: 0 <= i < j < |entries| ==> entries[i].0 != entries[j].0
  }

  /** A parsed style file: the YAML mapping from style name to its value, in
      file order. A mapping holds each name once. */
  type StyleFile = f: seq<(string, Node)> | DistinctNames(f)

  /** One configuration directory, already read: its style file and its
      parameter-rule file, each `None` when the file does not exist. */
  datatype Layer = Layer(styleFile: Option<StyleFile>, paramFile: Option<seq<RuleConf>>)

  const EmptyDb: StyleDb := StyleDb([], map[])

  // ---------------------------------------------------------------------------
  // Look-ups

  /** StyleDb.get_style: the named style, else the style named "default", else nothing. */
  function GetStyle(db: StyleDb, name: string): (r: Option<Style>)
    ensures r.Some? <==> name in db.styles || "default" in db.styles
    ensures name in db.styles ==> r == Some(db.styles[name])
    ensures name !in db.styles && r.Some? ==> r == Some(db.styles["default"])
  {
    if name in db.styles then Some(db.styles[name])
    else if "default" in db.styles then Some(db.styles["default"])
    else None
  }

  /** `styles.get(name, None)` for a name that may itself be None. */
  function Lookup(styles: map<string, Style>, name: Option<string>): (r: Option<Style>)
  {
    if name.Some? && name.value in styles then Some(styles[name.value]) else None
  }

  // ---------------------------------------------------------------------------
  // Rule selection

  /** Rule i wins: it scores above zero, strictly above every earlier rule and
      at least as high as every later one. */
  ghost predicate IsFirstStrictMax(scores: seq<nat>, i: int)
  {
    && 0 <= i < |scores|
    && scores[i] > 0
    && (forall j :: 0 <= j < i ==> scores[j] < scores[i])
    && (forall j :: i < j < |scores| ==> scores[j] <= scores[i])
  }

  /** The selection loop of get_param_style from position k on, with `r` the
      best score so far and `best` the rule that reached it. */
  function Pick(scores: seq<nat>, k: nat, r: nat, best: Option<nat>): (b: Option<nat>)
    requires k <= |scores|
    requires best.Some? ==> best.value < k
    ensures b.Some? ==> b.value < |scores|
    decreases |scores| - k
  {
    if k == |scores| then best
    else if scores[k] > r then Pick(scores, k + 1, scores[k], Some(k))
    else Pick(scores, k + 1, r, best)
  }

  /** The rule get_param_style selects: scanning in order from a best score of 0,
      the last rule whose score beats the best so far, if any does. */
  function BestRule(scores: seq<nat>): (b: Option<nat>)
    ensures b.Some? ==> b.value < |scores|
  {
    Pick(scores, 0, 0, None)
  }

  /** The loop invariant of the selection loop, carried through the recursion. */
  lemma {:induction false} PickSpec(scores: seq<nat>, k: nat, r: nat, best: Option<nat>)
    requires k <= |scores|
    requires best.None? ==> r == 0 && forall j :: 0 <= j < k ==> scores[j] == 0
    requires best.Some? ==> IsFirstStrictMax(scores[..k], best.value) && r == scores[best.value]
    ensures Pick(scores, k, r, best).None? ==> forall j :: 0 <= j < |scores| ==> scores[j] == 0
    ensures Pick(scores, k, r, best).Some? ==> IsFirstStrictMax(scores, Pick(scores, k, r, best).value)
    decreases |scores| - k
  {
    if k == |scores| {
      assert scores[..k] == scores;
    } else if scores[k] > r {
      var pre := scores[..k + 1];
      assert IsFirstStrictMax(pre, k) by {
        forall j | 0 <= j < k ensures pre[j] < pre[k] {
          if best.Some? {
            assert pre[j] == scores[..k][j];
          }
        }
      }
      PickSpec(scores, k + 1, scores[k], Some(k));
    } else {
      if best.Some? {
        var b := best.value;
        var pre := scores[..k + 1];
        var seen := scores[..k];
        assert IsFirstStrictMax(pre, b) by {
          assert pre[b] == seen[b];
          forall j | 0 <= j < b ensures pre[j] < pre[b] {
            assert pre[j] == seen[j];
          }
          forall j | b < j < k + 1 ensures pre[j] <= pre[b] {
            if j < k {
              assert pre[j] == seen[j];
            }
          }
        }
      }
      PickSpec(scores, k + 1, r, best);
    }
  }

  /** get_param_style picks exactly the first rule with the strict maximum
      positive score, and picks none exactly when every rule scores 0. */
  lemma BestRuleIsFirstStrictMax(scores: seq<nat>, i: int)
    ensures BestRule(scores).None? <==> forall j :: 0 <= j < |scores| ==> scores[j] == 0
    ensures BestRule(scores) == Some(i) <==> IsFirstStrictMax(scores, i)
  {
    PickSpec(scores, 0, 0, None);
    if IsFirstStrictMax(scores, i) {
      assert scores[i] > 0;
    }
  }

  /** The score of every rule in order; the first rule without conditions raises. */
  function Scores(rules: seq<ParamStyle>, field: Matcher): (r: Result<seq<nat>>)
    ensures r.Success? <==> forall i :: 0 <= i < |rules| ==> |rules[i].conditions| > 0
    ensures r.Failure? ==> r.error == EmptyMatch
    ensures r.Success? ==> |r.value| == |rules|
    ensures r.Success? ==> forall i :: 0 <= i < |rules| ==> RuleScore(rules[i], field) == Success(r.value[i])
  {
    if rules == [] then Success([])
    else
      var h :- RuleScore(rules[0], field);
      var t :- Scores(rules[1..], field);
      Success([h] + t)
  }

  /** StyleDb.get_param_style: the style of the best-matching rule for the plot
      type, or, when no rule matches, the scalar or vector default style. */
  function GetParamStyle(db: StyleDb, field: Matcher, scalar: bool, plotType: string): (r: Result<Option<Style>>)
    ensures r.Failure? ==> r.error == EmptyMatch || r.error == EmptyStyleList
    ensures (exists i :: 0 <= i < |db.rules| && |db.rules[i].conditions| == 0) ==> r == Failure(EmptyMatch)
  {
    var scores :- Scores(db.rules, field);
    match BestRule(scores)
    case Some(i) =>
      var name :- FindStyle(db.rules[i], plotType);
      Success(Lookup(db.styles, name))
    case None =>
      Success(Lookup(db.styles, Some(if scalar then ScalarDefault else VectorDefault)))
  }

  /** Rule i is the one get_param_style chooses, stated on the rules' own scores. */
  ghost predicate Chosen(rules: seq<ParamStyle>, field: Matcher, i: int)
  {
    && 0 <= i < |rules|
    && (forall j :: 0 <= j < |rules| ==> RuleScore(rules[j], field).Success?)
    && RuleScore(rules[i], field).value > 0
    && (forall j :: 0 <= j < i ==> RuleScore(rules[j], field).value < RuleScore(rules[i], field).value)
    && (forall j :: i < j < |rules| ==> RuleScore(rules[j], field).value <= RuleScore(rules[i], field).value)
  }

  /** Every rule can be scored and none scores above 0. */
  ghost predicate NoneMatches(rules: seq<ParamStyle>, field: Matcher)
  {
    forall j :: 0 <= j < |rules| ==> RuleScore(rules[j], field) == Success(0)
  }

  /** The chosen rule's style for the plot type is looked up; a name that is not
      loaded gives no style rather than an error. A rule scoring 0 is never chosen. */
  lemma GetParamStyleUsesChosenRule(db: StyleDb, field: Matcher, scalar: bool, plotType: string, i: int)
    requires Chosen(db.rules, field, i)
    ensures FindStyle(db.rules[i], plotType).Failure? ==> GetParamStyle(db, field, scalar, plotType) == Failure(EmptyStyleList)
    ensures FindStyle(db.rules[i], plotType).Success? ==>
      GetParamStyle(db, field, scalar, plotType) == Success(Lookup(db.styles, FindStyle(db.rules[i], plotType).value))
  {
    var scores := Scores(db.rules, field).value;
    BestRuleIsFirstStrictMax(scores, i);
    assert IsFirstStrictMax(scores, i);
  }

  /** When no rule scores above 0 the scalar or the vector default is returned. */
  lemma GetParamStyleFallsBack(db: StyleDb, field: Matcher, scalar: bool, plotType: string)
    requires NoneMatches(db.rules, field)
    ensures scalar ==> GetParamStyle(db, field, scalar, plotType) == Success(Lookup(db.styles, Some(ScalarDefault)))
    ensures !scalar ==> GetParamStyle(db, field, scalar, plotType) == Success(Lookup(db.styles, Some(VectorDefault)))
  {
    var scores := Scores(db.rules, field).value;
    BestRuleIsFirstStrictMax(scores, 0);
  }

  /** Exactly one of the two cases holds whenever every rule can be scored:
      some rule is chosen, or none matches. */
  lemma ChosenOrNoneMatches(db: StyleDb, field: Matcher)
    requires forall j :: 0 <= j < |db.rules| ==> |db.rules[j].conditions| > 0
    ensures NoneMatches(db.rules, field) <==> !exists i :: Chosen(db.rules, field, i)
  {
    var scores := Scores(db.rules, field).value;
    if NoneMatches(db.rules, field) {
      forall i | 0 <= i < |db.rules|
        ensures !Chosen(db.rules, field, i)
      {
        assert RuleScore(db.rules[i], field) == Success(0);
      }
    } else {
      var j :| 0 <= j < |db.rules| && RuleScore(db.rules[j], field) != Success(0);
      assert scores[j] != 0;
      BestRuleIsFirstStrictMax(scores, 0);
      var b := BestRule(scores).value;
      BestRuleIsFirstStrictMax(scores, b);
      assert IsFirstStrictMax(scores, b);
      assert Chosen(db.rules, field, b);
    }
  }

  // ---------------------------------------------------------------------------
  // Decoding a style file

  /** A style entry that is not a list is treated as a one-element list. */
  function Items(d: Node): (items: seq<Node>)
  {
    if d.List? then d.items else [d]
  }

  /** The verb-less coastline shorthand: a single dict with several keys, or whose only key is not a verb. */
  predicate IsCoastShorthand(items: seq<Node>)
  {
    && |items| == 1
    && items[0].Dict?
    && (|items[0].fields| > 1 || (|items[0].fields| == 1 && SingleKey(items[0].fields) !in Verbs))
  }

  /** A directive written as a one-entry dict `{verb: params}`. */
  function DecodeDirective(v: Node): (r: Result<Visdef>)
    ensures r.Success? <==> v.Dict? && |v.fields| == 1
    ensures r.Success? ==> v.fields == map[r.value.verb := r.value.params]
  {
    if !v.Dict? then Failure(NotAMapping)
    else if |v.fields| != 1 then Failure(NotSingleEntry)
    else
      var verb := SingleKey(v.fields);
      Success(Visdef(verb, v.fields[verb]))
  }

  function DecodeDirectives(items: seq<Node>): (r: Result<seq<Visdef>>)
    ensures r.Success? <==> forall i :: 0 <= i < |items| ==> DecodeDirective(items[i]).Success?
    ensures r.Success? ==> |r.value| == |items|
    ensures r.Success? ==> forall i :: 0 <= i < |items| ==> DecodeDirective(items[i]) == Success(r.value[i])
  {
    if items == [] then Success([])
    else
      var h :- DecodeDirective(items[0]);
      var t :- DecodeDirectives(items[1..]);
      Success([h] + t)
  }

  /** The style a style-file entry describes. */
  function DecodeStyle(name: string, d: Node): (r: Result<Style>)
    ensures r.Success? ==> r.value.name == name
    ensures IsCoastShorthand(Items(d)) ==> r == Success(Style(name, [Visdef("mcoast", Items(d)[0])]))
    ensures Items(d) == [Dict(map[])] ==> r == Failure(EmptyShorthand)
    ensures !IsCoastShorthand(Items(d)) && Items(d) != [Dict(map[])] ==>
      && (r.Success? <==> forall i :: 0 <= i < |Items(d)| ==> DecodeDirective(Items(d)[i]).Success?)
      && (r.Success? ==> |r.value.visdefs| == |Items(d)|)
      && (r.Success? ==> forall i :: 0 <= i < |Items(d)| ==>
            Items(d)[i] == Dict(map[r.value.visdefs[i].verb := r.value.visdefs[i].params]))
  {
    var items := Items(d);
    if |items| == 1 && items[0].Dict? && |items[0].fields| > 1 then
      Success(Style(name, [Visdef("mcoast", items[0])]))
    else if |items| == 1 && items[0].Dict? && |items[0].fields| == 0 then
      Failure(EmptyShorthand)
    else if |items| == 1 && items[0].Dict? && SingleKey(items[0].fields) !in Verbs then
      Success(Style(name, [Visdef("mcoast", items[0])]))
    else
      var vds :- DecodeDirectives(items);
      Success(Style(name, vds))
  }

  /** The list-of-directives form a style is written in. */
  function EncodeStyle(s: Style): (d: Node)
  {
    List(seq(|s.visdefs|, i requires 0 <= i < |s.visdefs| => Dict(map[s.visdefs[i].verb := s.visdefs[i].params])))
  }

  /** Writing a style as a list of directives and reading it back gives it back,
      except for a single directive with an unknown verb, which the shorthand rule
      reads as a coastline (see DecodeUnknownSingleVerb). */
  lemma DecodeEncode(s: Style)
    requires |s.visdefs| != 1 || s.visdefs[0].verb in Verbs
    ensures DecodeStyle(s.name, EncodeStyle(s)) == Success(s)
  {
    var items := Items(EncodeStyle(s));
    assert |items| == |s.visdefs|;
    forall i | 0 <= i < |items|
      ensures DecodeDirective(items[i]) == Success(s.visdefs[i])
    {
      assert items[i] == Dict(map[s.visdefs[i].verb := s.visdefs[i].params]);
      assert |items[i].fields| == 1;
    }
    var r := DecodeStyle(s.name, EncodeStyle(s));
    if |items| == 1 {
      assert !IsCoastShorthand(items);
    }
    assert r.Success?;
    assert r.value.visdefs == s.visdefs;
  }

  /** The shorthand heuristic in action: one directive whose verb is not known
      becomes a coastline directive whose params are the whole dict. */
  lemma DecodeUnknownSingleVerb(name: string, verb: string, params: Node)
    requires verb !in Verbs
    ensures DecodeStyle(name, EncodeStyle(Style(name, [Visdef(verb, params)])))
         == Success(Style(name, [Visdef("mcoast", Dict(map[verb := params]))]))
  {
  }

  /** A style entry given as a single `{verb: params}` dict is a one-directive style. */
  lemma DecodeSingleDirective(name: string, verb: string, params: Node)
    requires verb in Verbs
    ensures DecodeStyle(name, Dict(map[verb := params])) == Success(Style(name, [Visdef(verb, params)]))
  {
    var d := Dict(map[verb := params]);
    assert d.fields.Keys == {verb};
    assert SingleKey(d.fields) == verb;
    assert Items(d) == [d];
    assert !IsCoastShorthand([d]);
    assert DecodeDirective(d) == Success(Visdef(verb, params));
    assert DecodeDirectives([d]).value == [Visdef(verb, params)];
  }

  // ---------------------------------------------------------------------------
  // Loading

  /** The value a style file gives the name `n`, if it names it. */
  function LastEntry(file: StyleFile, n: string): (d: Option<Node>)
  {
    if file == [] then None
    else if file[|file| - 1].0 == n then Some(file[|file| - 1].1)
    else LastEntry(file[..|file| - 1], n)
  }

  /** The decoding loop of _load_styles: every entry is decoded in file order and
      stored under its name; the first entry that cannot be decoded aborts. */
  function MergeStyles(styles: map<string, Style>, file: StyleFile): (r: Result<map<string, Style>>)
    ensures r.Success? <==> forall i :: 0 <= i < |file| ==> DecodeStyle(file[i].0, file[i].1).Success?
    ensures r.Success? ==> styles.Keys <= r.value.Keys
  {
    if file == [] then Success(styles)
    else
      var init := file[..|file| - 1];
      assert forall i :: 0 <= i < |init| ==> init[i] == file[i];
      var m :- MergeStyles(styles, init);
      var s :- DecodeStyle(file[|file| - 1].0, file[|file| - 1].1);
      Success(m[file[|file| - 1].0 := s])
  }

  /** After the loop, a name the file defines holds the decoding of its last
      entry, and every other name keeps its old style. */
  lemma {:induction false} MergeStylesEntry(styles: map<string, Style>, file: StyleFile, n: string)
    requires MergeStyles(styles, file).Success?
    ensures n in MergeStyles(styles, file).value <==> n in styles || LastEntry(file, n).Some?
    ensures LastEntry(file, n).None? && n in styles ==> MergeStyles(styles, file).value[n] == styles[n]
    ensures LastEntry(file, n).Some? ==>
      n in MergeStyles(styles, file).value
      && DecodeStyle(n, LastEntry(file, n).value) == Success(MergeStyles(styles, file).value[n])
    decreases |file|
  {
    if file != [] {
      MergeStylesEntry(styles, file[..|file| - 1], n);
    }
  }

  /** A style with a single empty directive of the given verb. The source stores a bare
      directive here instead of a one-element list; see README. */
  function DefaultStyle(name: string, verb: string): Style
  {
    Style(name, [Visdef(verb, Dict(map[]))])
  }

  function AddDefault(styles: map<string, Style>, name: string, verb: string): (r: map<string, Style>)
  {
    if name in styles then styles else styles[name := DefaultStyle(name, verb)]
  }

  /** StyleDb._make_defaults: the three built-in names are present afterwards; a
      style already loaded under one of them is kept. */
  function MakeDefaults(styles: map<string, Style>): (r: map<string, Style>)
    ensures r.Keys == styles.Keys + {ScalarDefault, VectorDefault, DiffDefault}
    ensures forall n :: n in styles ==> r[n] == styles[n]
    ensures ScalarDefault !in styles ==> r[ScalarDefault] == DefaultStyle(ScalarDefault, "mcont")
    ensures VectorDefault !in styles ==> r[VectorDefault] == DefaultStyle(VectorDefault, "mwind")
    ensures DiffDefault !in styles ==> r[DiffDefault] == DefaultStyle(DiffDefault, "mcont")
  {
    AddDefault(AddDefault(AddDefault(styles, ScalarDefault, "mcont"), VectorDefault, "mwind"), DiffDefault, "mcont")
  }

  /** StyleDb._load_styles: decode the file into the style map, then make sure the defaults exist. */
  function LoadStyles(styles: map<string, Style>, file: StyleFile): (r: Result<map<string, Style>>)
    ensures r.Success? <==> forall i :: 0 <= i < |file| ==> DecodeStyle(file[i].0, file[i].1).Success?
    ensures r.Success? ==> styles.Keys + {ScalarDefault, VectorDefault, DiffDefault} <= r.value.Keys
  {
    var m :- MergeStyles(styles, file);
    Success(MakeDefaults(m))
  }

  /** What _load_styles leaves under one name: the file's entry for it if
      there is one, else the old style, else (for a built-in name) the default. */
  lemma LoadStylesEntry(styles: map<string, Style>, file: StyleFile, n: string)
    requires LoadStyles(styles, file).Success?
    ensures LastEntry(file, n).Some? ==>
      n in LoadStyles(styles, file).value
      && DecodeStyle(n, LastEntry(file, n).value) == Success(LoadStyles(styles, file).value[n])
    ensures LastEntry(file, n).None? && n in styles ==> LoadStyles(styles, file).value[n] == styles[n]
    ensures n in LoadStyles(styles, file).value <==>
      n in styles || LastEntry(file, n).Some? || n in {ScalarDefault, VectorDefault, DiffDefault}
    ensures LastEntry(file, n).None? && n !in styles && n == ScalarDefault ==>
      LoadStyles(styles, file).value[n] == DefaultStyle(ScalarDefault, "mcont")
    ensures LastEntry(file, n).None? && n !in styles && n == VectorDefault ==>
      LoadStyles(styles, file).value[n] == DefaultStyle(VectorDefault, "mwind")
    ensures LastEntry(file, n).None? && n !in styles && n == DiffDefault ==>
      LoadStyles(styles, file).value[n] == DefaultStyle(DiffDefault, "mcont")
  {
    MergeStylesEntry(styles, file, n);
  }

  /** The first name of the list that is not a loaded style. */
  function MissingStyle(names: seq<string>, styles: map<string, Style>): (r: Option<string>)
    ensures r.None? <==> forall i :: 0 <= i < |names| ==> names[i] in styles
    ensures r.Some? ==> r.value in names && r.value !in styles
  {
    if names == [] then None
    else if names[0] !in styles then Some(names[0])
    else MissingStyle(names[1..], styles)
  }

  /** Every style name the rule refers to is loaded. */
  ghost predicate RefsLoaded(p: ParamStyle, styles: map<string, Style>)
  {
    forall n :: n in ReferencedStyles(p) ==> n in styles
  }

  function MakeRules(confs: seq<RuleConf>): (ps: seq<ParamStyle>)
    ensures |ps| == |confs|
    ensures forall i :: 0 <= i < |confs| ==> ps[i] == MakeRule(confs[i])
  {
    seq(|confs|, i requires 0 <= i < |confs| => MakeRule(confs[i]))
  }

  /** `name` is what _load_params raises on: the first unloaded style name of the
      first rule that refers to one. */
  ghost predicate FirstUnloaded(confs: seq<RuleConf>, styles: map<string, Style>, name: string)
  {
    exists i :: 0 <= i < |confs|
      && (forall j :: 0 <= j < i ==> RefsLoaded(MakeRule(confs[j]), styles))
      && MissingStyle(ReferencedStyles(MakeRule(confs[i])), styles) == Some(name)
  }

  /** StyleDb._load_params: each rule is checked against the loaded styles and
      appended after the rules already there; an unknown style name aborts. */
  function LoadParams(db: StyleDb, confs: seq<RuleConf>): (r: Result<StyleDb>)
    ensures r.Success? <==> forall i :: 0 <= i < |confs| ==> RefsLoaded(MakeRule(confs[i]), db.styles)
    ensures r.Success? ==> r.value.styles == db.styles && r.value.rules == db.rules + MakeRules(confs)
    ensures r.Failure? ==> r.error.InvalidStyle? && FirstUnloaded(confs, db.styles, r.error.name)
    decreases |confs|
  {
    if confs == [] then Success(db)
    else
      var p := MakeRule(confs[0]);
      match MissingStyle(ReferencedStyles(p), db.styles)
      case Some(name) =>
        assert FirstUnloaded(confs, db.styles, name) by {
          assert MissingStyle(ReferencedStyles(MakeRule(confs[0])), db.styles) == Some(name);
        }
        Failure(InvalidStyle(name))
      case None =>
        LoadParamsStep(db, confs);
        FirstUnloadedStep(confs, db.styles);
        LoadParams(StyleDb(db.rules + [p], db.styles), confs[1..])
  }

  /** A rule whose styles are all loaded passes the blame on to the rules after it. */
  lemma FirstUnloadedStep(confs: seq<RuleConf>, styles: map<string, Style>)
    requires |confs| > 0 && RefsLoaded(MakeRule(confs[0]), styles)
    ensures forall name :: FirstUnloaded(confs[1..], styles, name) ==> FirstUnloaded(confs, styles, name)
  {
  }

  lemma LoadParamsStep(db: StyleDb, confs: seq<RuleConf>)
    requires |confs| > 0
    ensures (db.rules + [MakeRule(confs[0])]) + MakeRules(confs[1..]) == db.rules + MakeRules(confs)
    ensures (forall i :: 0 <= i < |confs| ==> RefsLoaded(MakeRule(confs[i]), db.styles))
        <==> RefsLoaded(MakeRule(confs[0]), db.styles)
             && forall i :: 0 <= i < |confs[1..]| ==> RefsLoaded(MakeRule(confs[1..][i]), db.styles)
  {
  }


  /** The rules a layer contributes, in file order. */
  function LayerRules(layer: Layer): seq<ParamStyle>
  {
    if layer.styleFile.Some? && layer.paramFile.Some? then MakeRules(layer.paramFile.value) else []
  }

  /** StyleDb._load for one directory: the rule file is read only when the style
      file exists; its rules come after the rules already loaded. */
  function LoadLayer(db: StyleDb, layer: Layer): (r: Result<StyleDb>)
    ensures layer.styleFile.None? ==> r == Success(db)
    ensures r.Success? <==>
      || layer.styleFile.None?
      || (&& LoadStyles(db.styles, layer.styleFile.value).Success?
          && (layer.paramFile.Some? ==> forall i :: 0 <= i < |layer.paramFile.value| ==>
                RefsLoaded(MakeRule(layer.paramFile.value[i]), LoadStyles(db.styles, layer.styleFile.value).value)))
    ensures (&& layer.styleFile.Some? && LoadStyles(db.styles, layer.styleFile.value).Success?
             && r.Failure?) ==>
      && layer.paramFile.Some? && r.error.InvalidStyle?
      && FirstUnloaded(layer.paramFile.value, LoadStyles(db.styles, layer.styleFile.value).value, r.error.name)
    ensures r.Success? ==> r.value.rules == db.rules + LayerRules(layer)
    ensures r.Success? ==> db.styles.Keys <= r.value.styles.Keys
    ensures r.Success? && layer.styleFile.Some? ==> {ScalarDefault, VectorDefault, DiffDefault} <= r.value.styles.Keys
  {
    match layer.styleFile
    case None => Success(db)
    case Some(file) =>
      var styles :- LoadStyles(db.styles, file);
      match layer.paramFile
      case None => Success(StyleDb(db.rules, styles))
      case Some(confs) => LoadParams(StyleDb(db.rules, styles), confs)
  }

  /** What one directory leaves under a name: its style file's entry for the
      name if it has one, else the style the name had before. */
  lemma LoadLayerEntry(db: StyleDb, layer: Layer, n: string)
    requires LoadLayer(db, layer).Success?
    ensures layer.styleFile.Some? && LastEntry(layer.styleFile.value, n).Some? ==>
      n in LoadLayer(db, layer).value.styles
      && DecodeStyle(n, LastEntry(layer.styleFile.value, n).value) == Success(LoadLayer(db, layer).value.styles[n])
    ensures (layer.styleFile.None? || LastEntry(layer.styleFile.value, n).None?) && n in db.styles ==>
      LoadLayer(db, layer).value.styles[n] == db.styles[n]
  {
    if layer.styleFile.Some? {
      LoadStylesEntry(db.styles, layer.styleFile.value, n);
    }
  }

  /** The layers loaded one after the other; the first failure aborts construction.
      No style name is ever dropped, and the rules already there stay in front. */
  function LoadLayers(db: StyleDb, layers: seq<Layer>): (r: Result<StyleDb>)
    ensures r.Success? ==> db.styles.Keys <= r.value.styles.Keys
    ensures r.Success? ==> |db.rules| <= |r.value.rules| && r.value.rules[..|db.rules|] == db.rules
    decreases |layers|
  {
    if layers == [] then Success(db)
    else
      var prev :- LoadLayers(db, layers[..|layers| - 1]);
      var r := LoadLayer(prev, layers[|layers| - 1]);
      assert r.Success? ==> r.value.rules[..|db.rules|] == prev.rules[..|db.rules|];
      r
  }

  /** The directories in the order StyleDb.__init__ loads them: local, custom, system. */
  function StyleLayers(local: Option<Layer>, custom: Option<Layer>, system: Layer): (ls: seq<Layer>)
  {
    (if local.Some? then [local.value] else []) + (if custom.Some? then [custom.value] else []) + [system]
  }

  /** StyleDb(...) with the optional local and custom directories. Once the
      system directory has a style file, the three default styles exist. */
  function OpenStyleDb(local: Option<Layer>, custom: Option<Layer>, system: Layer): (r: Result<StyleDb>)
    ensures r.Success? && system.styleFile.Some? ==>
      {ScalarDefault, VectorDefault, DiffDefault} <= r.value.styles.Keys
  {
    var layers := StyleLayers(local, custom, system);
    var r := LoadLayers(EmptyDb, layers);
    if r.Success? && system.styleFile.Some? then
      LoadLayersHasDefaults(EmptyDb, layers, |layers| - 1);
      r
    else r
  }

  // ---------------------------------------------------------------------------
  // Properties of loading

  /** The style file value that defines `n` in the last layer defining it. */
  function LastDefinition(layers: seq<Layer>, n: string): Option<Node>
    decreases |layers|
  {
    if layers == [] then None
    else
      var last := layers[|layers| - 1];
      if last.styleFile.Some? && LastEntry(last.styleFile.value, n).Some? then LastEntry(last.styleFile.value, n)
      else LastDefinition(layers[..|layers| - 1], n)
  }

  /** Loading one more layer is loading the earlier ones, then that layer. */
  lemma LoadLayersSnoc(db: StyleDb, layers: seq<Layer>, layer: Layer)
    ensures LoadLayers(db, layers + [layer])
         == if LoadLayers(db, layers).Failure? then LoadLayers(db, layers)
            else LoadLayer(LoadLayers(db, layers).value, layer)
  {
    assert (layers + [layer])[..|layers|] == layers;
  }

  /** The first layer that fails to load decides the outcome: construction stops
      there with that layer's error, whatever the later layers hold. */
  lemma {:induction false} LoadLayersFirstFailure(db: StyleDb, layers: seq<Layer>, k: int)
    requires 0 <= k < |layers|
    requires LoadLayers(db, layers[..k]).Success?
    requires LoadLayer(LoadLayers(db, layers[..k]).value, layers[k]).Failure?
    ensures LoadLayers(db, layers) == LoadLayer(LoadLayers(db, layers[..k]).value, layers[k])
    decreases |layers|
  {
    var init := layers[..|layers| - 1];
    if k < |layers| - 1 {
      assert init[..k] == layers[..k];
      assert init[k] == layers[k];
      LoadLayersFirstFailure(db, init, k);
    } else {
      assert init == layers[..k];
    }
  }

  /** One more optional directory on top of a result: a failure stays, an absent
      directory changes nothing. */
  function LoadAfter(r: Result<StyleDb>, layer: Option<Layer>): Result<StyleDb>
  {
    if r.Failure? || layer.None? then r else LoadLayer(r.value, layer.value)
  }

  /** StyleDb.__init__ step by step: the local directory (if any), then the
      custom one (if any), then the system one, each on top of the previous
      result, stopping at the first failure. */
  lemma OpenStyleDbLoadsInOrder(local: Option<Layer>, custom: Option<Layer>, system: Layer)
    ensures OpenStyleDb(local, custom, system)
         == LoadAfter(LoadAfter(LoadAfter(Success(EmptyDb), local), custom), Some(system))
  {
    var front := if local.Some? then [local.value] else [];
    var middle := if custom.Some? then [custom.value] else [];
    assert StyleLayers(local, custom, system) == (front + middle) + [system];
    LoadLayersSnoc(EmptyDb, front + middle, system);
    LoadLayersPrefix(local, custom);
  }

  /** The optional local and custom directories loaded in turn. */
  lemma LoadLayersPrefix(local: Option<Layer>, custom: Option<Layer>)
    ensures LoadLayers(EmptyDb, (if local.Some? then [local.value] else []) + (if custom.Some? then [custom.value] else []))
         == LoadAfter(LoadAfter(Success(EmptyDb), local), custom)
  {
    var front := if local.Some? then [local.value] else [];
    assert LoadLayers(EmptyDb, front) == LoadAfter(Success(EmptyDb), local) by {
      if local.Some? {
        assert front == [] + [local.value];
        LoadLayersSnoc(EmptyDb, [], local.value);
      }
    }
    if custom.Some? {
      LoadLayersSnoc(EmptyDb, front, custom.value);
    } else {
      assert front + [] == front;
    }
  }

  /** A directory whose rule file names a style that is not loaded makes building
      the database fail with that name, provided the directories before it load. */
  lemma OpenStyleDbFailsOnUnknownStyle(local: Option<Layer>, custom: Option<Layer>, system: Layer, k: int, n: string)
    requires 0 <= k < |StyleLayers(local, custom, system)|
    requires LoadLayers(EmptyDb, StyleLayers(local, custom, system)[..k]).Success?
    requires LoadLayer(LoadLayers(EmptyDb, StyleLayers(local, custom, system)[..k]).value,
                       StyleLayers(local, custom, system)[k]) == Failure(InvalidStyle(n))
    ensures OpenStyleDb(local, custom, system) == Failure(InvalidStyle(n))
  {
    LoadLayersFirstFailure(EmptyDb, StyleLayers(local, custom, system), k);
  }

  /** A name takes the style of the last layer whose style file defines it; a
      name no layer defines keeps the style it had before. */
  lemma {:induction false} LoadLayersLastDefinitionWins(db: StyleDb, layers: seq<Layer>, n: string)
    requires LoadLayers(db, layers).Success?
    ensures LastDefinition(layers, n).Some? ==>
      n in LoadLayers(db, layers).value.styles
      && DecodeStyle(n, LastDefinition(layers, n).value) == Success(LoadLayers(db, layers).value.styles[n])
    ensures LastDefinition(layers, n).None? && n in db.styles ==>
      n in LoadLayers(db, layers).value.styles
      && LoadLayers(db, layers).value.styles[n] == db.styles[n]
    decreases |layers|
  {
    if layers != [] {
      var init := layers[..|layers| - 1];
      LoadLayersLastDefinitionWins(db, init, n);
      LoadLayerEntry(LoadLayers(db, init).value, layers[|layers| - 1], n);
    }
  }

  /** Once any layer has a style file, the three built-in default styles exist. */
  lemma {:induction false} LoadLayersHasDefaults(db: StyleDb, layers: seq<Layer>, k: int)
    requires LoadLayers(db, layers).Success?
    requires 0 <= k < |layers| && layers[k].styleFile.Some?
    ensures {ScalarDefault, VectorDefault, DiffDefault} <= LoadLayers(db, layers).value.styles.Keys
    decreases |layers|
  {
    var init := layers[..|layers| - 1];
    var prev := LoadLayers(db, init).value;
    if k < |layers| - 1 {
      assert init[k] == layers[k];
      LoadLayersHasDefaults(db, init, k);
    }
  }

  /** With StyleDb's load order the system directory is loaded last, so for a
      name it defines the system style is the one kept. */
  lemma SystemStylesWin(local: Option<Layer>, custom: Option<Layer>, system: Layer, n: string)
    requires OpenStyleDb(local, custom, system).Success?
    requires system.styleFile.Some? && LastEntry(system.styleFile.value, n).Some?
    ensures n in OpenStyleDb(local, custom, system).value.styles
    ensures DecodeStyle(n, LastEntry(system.styleFile.value, n).value) == Success(OpenStyleDb(local, custom, system).value.styles[n])
  {
    LoadLayersLastDefinitionWins(EmptyDb, StyleLayers(local, custom, system), n);
  }

  /** Rules end up in load order: local rules first, then custom, then system,
      which is the order that breaks score ties. */
  lemma RulesInLoadOrder(local: Option<Layer>, custom: Option<Layer>, system: Layer)
    requires OpenStyleDb(local, custom, system).Success?
    ensures OpenStyleDb(local, custom, system).value.rules
         == (if local.Some? then LayerRules(local.value) else [])
          + (if custom.Some? then LayerRules(custom.value) else [])
          + LayerRules(system)
  {
    var front := if local.Some? then [local.value] else [];
    var middle := if custom.Some? then [custom.value] else [];
    assert StyleLayers(local, custom, system) == (front + middle) + [system];
    LoadLayersSnoc(EmptyDb, front + middle, system);
    var p2 := LoadLayers(EmptyDb, front + middle).value;
    if custom.Some? {
      LoadLayersSnoc(EmptyDb, front, custom.value);
    } else {
      assert front + middle == front;
    }
    if local.Some? {
      assert front == [] + [local.value];
      LoadLayersSnoc(EmptyDb, [], local.value);
    }
  }

  /** A rule file naming a style that is not loaded makes the directory fail, and
      the error names the first unloaded style of the first rule that has one. */
  lemma UnknownStyleFails(db: StyleDb, layer: Layer, confs: seq<RuleConf>, i: int)
    requires layer.paramFile == Some(confs) && layer.styleFile.Some?
    requires LoadStyles(db.styles, layer.styleFile.value).Success?
    requires 0 <= i < |confs|
    requires forall j :: 0 <= j < i ==> RefsLoaded(MakeRule(confs[j]), LoadStyles(db.styles, layer.styleFile.value).value)
    requires !RefsLoaded(MakeRule(confs[i]), LoadStyles(db.styles, layer.styleFile.value).value)
    ensures MissingStyle(ReferencedStyles(MakeRule(confs[i])), LoadStyles(db.styles, layer.styleFile.value).value).Some?
    ensures LoadLayer(db, layer) == Failure(InvalidStyle(
      MissingStyle(ReferencedStyles(MakeRule(confs[i])), LoadStyles(db.styles, layer.styleFile.value).value).value))
  {
    var styles := LoadStyles(db.styles, layer.styleFile.value).value;
    var r := LoadLayer(db, layer);
    assert !RefsLoaded(MakeRule(layer.paramFile.value[i]), styles);
    assert r.Failure?;
    FirstUnloadedIsRuleI(confs, styles, i, r.error.name);
  }

  /** Only the first rule with an unloaded style can be the one blamed. */
  lemma FirstUnloadedIsRuleI(confs: seq<RuleConf>, styles: map<string, Style>, i: int, name: string)
    requires 0 <= i < |confs|
    requires forall j :: 0 <= j < i ==> RefsLoaded(MakeRule(confs[j]), styles)
    requires !RefsLoaded(MakeRule(confs[i]), styles)
    requires FirstUnloaded(confs, styles, name)
    ensures MissingStyle(ReferencedStyles(MakeRule(confs[i])), styles) == Some(name)
  {
    var k :| 0 <= k < |confs|
      && (forall j :: 0 <= j < k ==> RefsLoaded(MakeRule(confs[j]), styles))
      && MissingStyle(ReferencedStyles(MakeRule(confs[k])), styles) == Some(name);
    assert k == i;
  }
}

=== FILE: visdefs.dfy ===
/** Rendering directives (Visdef) and styles: an ordered list of directives. */
module Visdefs {
  import opened Wrappers
  import opened Strings
  import opened Nodes

  /** The verbs that have a renderer builder. */
  const Verbs: seq<string> := ["mcont", "mwind", "mcoast", "msymb", "mgraph"]

  /** One rendering directive. The verb is free text from configuration and is
      only checked when the directive is turned into a request. */
  datatype Visdef = Visdef(verb: string, params: Node)

  /** A named, ordered list of directives; the order is the drawing order. */
  datatype Style = Style(name: string, visdefs: seq<Visdef>)

  /** The renderer call a builder produces: `verb(**args)`. The renderer itself is outside the model. */
  datatype Request = Request(verb: string, args: map<string, Node>)

  /** A positional argument of Style.update: a dict, kept in insertion order
      because lower-cased keys may collide, or any other value. */
  datatype Override = Mapping(entries: seq<(string, Node)>) | NotMapping

  /** The style after an update, and the caller's own style after the same call. */
  datatype Updated = Updated(owner: Style, result: Style)

  /** Assigning `params[param] = value` on a directive whose verb is `verb`; other verbs are left alone. */
  function Change(v: Visdef, verb: string, param: string, value: Node): (r: Result<Visdef>)
    ensures verb != v.verb ==> r == Success(v)
    ensures verb == v.verb ==> (r.Success? <==> v.params.Dict?)
    ensures r.Success? ==> r.value.verb == v.verb
    ensures r.Success? && verb == v.verb ==>
      r.value.params.Dict? && Overrides(v.params.fields, map[param := value], r.value.params.fields)
  {
    if verb != v.verb then Success(v)
    else if !v.params.Dict? then Failure(NotAMapping)
    else Success(Visdef(v.verb, Dict(v.params.fields[param := value])))
  }

  /** Sets the text list of a symbol directive, but only when its `symbol_type`
      (case-insensitively) is "text". */
  function ChangeSymbolTextList(v: Visdef, value: Node): (r: Result<Visdef>)
    ensures v.verb != "msymb" ==> r == Failure(NotMsymb)
    ensures v.verb == "msymb" && !v.params.Dict? ==> r == Failure(NotAMapping)
    ensures v.verb == "msymb" && v.params.Dict? && "symbol_type" !in v.params.fields ==> r == Success(v)
    ensures v.verb == "msymb" && v.params.Dict? && "symbol_type" in v.params.fields ==>
      (r.Success? <==> v.params.fields["symbol_type"].Text?)
    ensures r.Success? ==> r.value.verb == v.verb && r.value.params.Dict?
    ensures r.Success? && r.value != v ==>
      && v.params.fields["symbol_type"].Text?
      && Lower(v.params.fields["symbol_type"].s) == "text"
      && Overrides(v.params.fields, map["symbol_text_list" := value], r.value.params.fields)
    ensures (&& v.verb == "msymb" && v.params.Dict? && "symbol_type" in v.params.fields
             && v.params.fields["symbol_type"].Text? && Lower(v.params.fields["symbol_type"].s) == "text") ==>
      r.Success? && "symbol_text_list" in r.value.params.fields && r.value.params.fields["symbol_text_list"] == value
  {
    if v.verb != "msymb" then Failure(NotMsymb)
    else if !v.params.Dict? then Failure(NotAMapping)
    else
      var kind := Get(v.params.fields, "symbol_type", Text(""));
      if !kind.Text? then Failure(NotAString)
      else if Lower(kind.s) == "text" then
        Success(Visdef(v.verb, Dict(v.params.fields["symbol_text_list" := value])))
      else Success(v)
  }

  /** Dispatches on the verb to its builder, passing the params as keyword arguments. */
  function ToRequest(v: Visdef): (r: Result<Request>)
    ensures r.Success? <==> v.verb in Verbs && v.params.Dict?
    ensures v.verb !in Verbs ==> r == Failure(UnsupportedVerb(v.verb))
    ensures r.Success? ==> r.value.verb == v.verb && r.value.args == v.params.fields
  {
    if v.verb !in Verbs then Failure(UnsupportedVerb(v.verb))
    else if !v.params.Dict? then Failure(NotAMapping)
    else Success(Request(v.verb, v.params.fields))
  }

  /** One request per directive, in drawing order; the first directive that cannot be built aborts. */
  function StyleToRequest(s: Style): (r: Result<seq<Request>>)
    ensures r.Success? <==> forall i :: 0 <= i < |s.visdefs| ==> ToRequest(s.visdefs[i]).Success?
    ensures r.Success? ==> |r.value| == |s.visdefs|
    ensures r.Success? ==> forall i :: 0 <= i < |s.visdefs| ==> ToRequest(s.visdefs[i]) == Success(r.value[i])
  {
    RequestsOf(s.visdefs)
  }

  function RequestsOf(vds: seq<Visdef>): (r: Result<seq<Request>>)
    ensures r.Success? <==> forall i :: 0 <= i < |vds| ==> ToRequest(vds[i]).Success?
    ensures r.Success? ==> |r.value| == |vds|
    ensures r.Success? ==> forall i :: 0 <= i < |vds| ==> ToRequest(vds[i]) == Success(r.value[i])
  {
    if vds == [] then Success([])
    else
      var h :- ToRequest(vds[0]);
      var t :- RequestsOf(vds[1..]);
      Success([h] + t)
  }

  /** `{k.lower(): v for k, v in d.items()}`: the keys lower-cased; when two keys
      collide, the later entry wins. */
  function LowerKeys(entries: seq<(string, Node)>): (m: map<string, Node>)
    ensures RekeyedFrom(entries, Lower, m)
  {
    Rekeyed(entries, Lower)
  }

  /** The merge Style.update applies to one directive. A non-dict argument is skipped. */
  function Merge(v: Visdef, o: Override): (r: Result<Visdef>)
    ensures o.NotMapping? ==> r == Success(v)
    ensures o.Mapping? ==> (r.Success? <==> v.params.Dict?)
    ensures r.Success? ==> r.value.verb == v.verb
    ensures o.Mapping? && r.Success? ==>
      r.value.params.Dict? && Overrides(v.params.fields, LowerKeys(o.entries), r.value.params.fields)
  {
    match o
    case NotMapping => Success(v)
    case Mapping(entries) =>
      if !v.params.Dict? then Failure(NotAMapping)
      else Success(Visdef(v.verb, Dict(v.params.fields + LowerKeys(entries))))
  }

  /** Merges the i-th argument into the i-th directive; arguments past the last directive are ignored. */
  function MergeAll(vds: seq<Visdef>, args: seq<Override>): (r: Result<seq<Visdef>>)
    ensures r.Success? <==> forall i :: 0 <= i < |vds| && i < |args| ==> Merge(vds[i], args[i]).Success?
    ensures r.Success? ==> |r.value| == |vds|
    ensures r.Success? ==> forall i :: 0 <= i < |vds| && i < |args| ==> Merge(vds[i], args[i]) == Success(r.value[i])
    ensures r.Success? ==> forall i :: |args| <= i < |vds| ==> r.value[i] == vds[i]
    ensures r.Failure? ==> r.error == NotAMapping
  {
    if vds == [] || args == [] then Success(vds)
    else
      var h :- Merge(vds[0], args[0]);
      var t :- MergeAll(vds[1..], args[1..]);
      Success([h] + t)
  }

  /** Style.update(*args, inplace=...): copy-on-write unless `inplace` is set. */
  function Update(s: Style, args: seq<Override>, inplace: bool): (r: Result<Updated>)
    ensures r.Success? <==>
      forall i :: 0 <= i < |s.visdefs| && i < |args| && args[i].Mapping? ==> s.visdefs[i].params.Dict?
    ensures r.Failure? ==> r.error == NotAMapping
    ensures r.Success? && !inplace ==> r.value.owner == s
    ensures r.Success? && inplace ==> r.value.owner == r.value.result
    ensures r.Success? ==> r.value.result.name == s.name && |r.value.result.visdefs| == |s.visdefs|
    ensures r.Success? ==> forall i :: 0 <= i < |s.visdefs| ==>
      && r.value.result.visdefs[i].verb == s.visdefs[i].verb
      && (i >= |args| || args[i].NotMapping? ==> r.value.result.visdefs[i] == s.visdefs[i])
      && (i < |args| && args[i].Mapping? ==>
            r.value.result.visdefs[i].params.Dict?
            && Overrides(s.visdefs[i].params.fields, LowerKeys(args[i].entries),
                         r.value.result.visdefs[i].params.fields))
  {
    var vds :- MergeAll(s.visdefs, args);
    var result := Style(s.name, vds);
    Success(Updated(if inplace then result else s, result))
  }

  /** Arguments past the last directive change nothing, whatever they are. */
  lemma {:induction false} MergeAllIgnoresExtra(vds: seq<Visdef>, args: seq<Override>, extra: seq<Override>)
    requires |args| >= |vds|
    ensures MergeAll(vds, args + extra) == MergeAll(vds, args)
    decreases |vds|
  {
    if vds != [] {
      assert (args + extra)[0] == args[0];
      assert (args + extra)[1..] == args[1..] + extra;
      MergeAllIgnoresExtra(vds[1..], args[1..], extra);
    }
  }

  /** Style.update ignores every argument beyond the directive count. */
  lemma UpdateIgnoresExtraArgs(s: Style, args: seq<Override>, extra: seq<Override>, inplace: bool)
    requires |args| >= |s.visdefs|
    ensures Update(s, args + extra, inplace) == Update(s, args, inplace)
  {
    MergeAllIgnoresExtra(s.visdefs, args, extra);
  }
}

=== FILE: wrappers.dfy ===
/** Failure-compatible wrappers shared by the whole model, and the errors the
    style engine can raise. Each error names the situation in which the Python
    source raises an exception. */
module Wrappers {

  /** `None` plays the role of Python's `None` result. */
  datatype Option<+T> = None | Some(value: T) {

    /** The wrapped value, or `default` when there is none (Python's `x if x is not None else default`). */
    function GetOr(default: T): T {
      match this
      case Some(v) => v
      case None => default
    }
  }

  datatype Error =
    | UnsupportedVerb(verb: string)  // to_request on a verb with no builder
    | NotAMapping                    // a dict operation on a value that is not a dict
    | NotAString                     // `.lower()` on a value that is not a string
    | NotSingleEntry                 // `((k, v),) = d.items()` on a dict without exactly one entry
    | EmptyShorthand                 // `list(d.keys())[0]` on an empty dict
    | NoLength                       // `len()` of a value that has no length
    | EmptyMatch                     // `max([])` for a rule without match conditions
    | EmptyStyleList                 // `[0]` on an empty style-name list
    | InvalidStyle(name: string)     // a rule names a style that is not loaded
    | NotMsymb                       // the msymb assertion of change_symbol_text_list
    | NoStyle                        // attribute access on a `None` style

  /** The outcome of an operation that may raise. */
  datatype Result<+T> = Success(value: T) | Failure(error: Error) {

    predicate IsFailure() {
      Failure?
    }

    function PropagateFailure<U>(): Result<U>
      requires Failure?
    {
      Failure(error)
    }

    function Extract(): T
      requires Success?
    {
      value
    }
  }
}
